=== FILE: README.md ===
# deno command-line flags, modelled in Dafny

This project models the command-line front end of the deno runtime, `cli/flags.rs`.
`set_flags` takes the process's argument vector and hands it to the argument-parser library. The parser is configured by `create_cli_app`. From the parser's report, `set_flags` builds three things:

- the `DenoFlags` record of fifteen switches (`DenoFlags::from`);
- the argument list forwarded to the script: the program name, then the selected subcommand's values, or the script and its trailing arguments;
- the option lists passed to the JavaScript engine for `--v8-options` and `--v8-flags=<values>`.

Modules, one per concern:

- `Wrappers`: `Option` and `Result`.
- `Catalog`: the declared arguments and subcommands of `create_cli_app` as data. This covers long and short spellings, which argument takes a value, and each subcommand's positional arity. Lookups by spelling are proved unique.
- `Flags`: the `DenoFlags` record and `FromPresent`, the mapping from present names to the record (`DenoFlags::from`). It is checked against `Grants`, an independent field-by-field reading.
- `Cli`: the parser's report (`Matches`: switches, values, selection), the presence query, and the forwarded argument list (`RestArgv`).
- `Engine`: the engine option lists, and the comma split that the corrected calls apply to a `--v8-flags` value.
- `Classifier`: an abstraction of the argument-parser library's behaviour for this catalog. It turns raw tokens into a `Matches` report, or a parse error. It covers:
  - long switches;
  - short switches, alone or combined (`-Dr`);
  - `--v8-flags=<value>`;
  - the `info`, `eval` and `fmt` subcommands with their arities;
  - any other word, which starts a script whose following tokens pass through untouched.

  The library itself is not part of this model.
- `Invocation`: `set_flags` end to end (`SetFlags`), and the file's nine test functions as lemmas about it.

Three behaviours of the code as written are recorded under "## Findings". For each, the code as written and a corrected reading are both modelled:

- `SetFlags` and `Finish` are the code as written;
- `SetFlagsIntended` and `FinishIntended` carry the corrections;
- `IntendedAgreesAwayFromQuirks` proves that the two agree whenever no quirk is triggered.

`set_flags` declares a `Result` return type but only ever returns `Ok`. A rejected command line ends the process inside the parser. The model's `Outcome` therefore has:

- `Exited(error)` for a rejected command line;
- `Panicked` for the `unwrap` on a missing value;
- `Returned(engineCalls, parsed)`.

`SetFlags` never yields anything that stands for the `Err` arm.

## Model

| member | source | states |
|---|---|---|
| Flags.FromPresentGrants | cli/flags.rs:31-92 | For every field, the record built from the present names has it on exactly when its own name is present or, for the six permissions, when `allow-all` is present (both directions). |
| Flags.NothingPresentIsDefault | cli/flags.rs:33 | With no name present the record is the all-false default, and every field of the default is off. |
| Flags.OwnNameSetsOnlyItsField | cli/flags.rs:35-88 | Each switch's own name, alone, turns on exactly that field and leaves the other fourteen off. |
| Flags.MoreNamesMoreFlags | cli/flags.rs:31-92 | The mapping only ever sets fields, so more present names never turn a field off. |
| Flags.AllowAllIsUnionOfPermissions | cli/flags.rs:62-70 | Beside any other names, `allow-all` gives the same record as the six individual permission names together. |
| Flags.PermissionsBesideAllowAllChangeNothing | cli/flags.rs:62-70 | Adding any of the individual permission names beside `allow-all` does not change the record. |
| Flags.EngineOptionsChangeNothing | cli/flags.rs:155-163 | `v8-options` and `v8-flags` never change any field of the record. |
| Flags.ModeRecords | cli/flags.rs:80-88 | The name of `info`, `eval` or `fmt` alone turns on exactly that mode field. |
| Flags.ExampleRecords | cli/flags.rs:282-319 | The records built for the switch sets of the second, third and fourth tests are the expected default-plus-those-fields records. The name `v8-flags` alone gives the default record, since no field of lines 31-92 reads it. |
| Catalog.FromLong | cli/flags.rs:106-171 | A long spelling that is found belongs to the argument of that name; one that is not found is the name of no argument. |
| Catalog.FromShort | cli/flags.rs:106-153 | A short letter that is found is that argument's declared letter; otherwise no argument declares it. |
| Catalog.LongSpellingsAreUnique | cli/flags.rs:106-171 | Every argument's long spelling looks up that same argument, so no two arguments share a spelling. |
| Catalog.ShortSpellingsAreUnique | cli/flags.rs:106-153 | Only `version`, `allow-all`, `log-debug` and `reload` have a short letter (`-v -A -D -r`), and each letter looks up its own argument. |
| Catalog.FromSubName | cli/flags.rs:172-196 | A subcommand name that is found is that subcommand's name; otherwise no subcommand is called that. |
| Catalog.SubNamesAreUnique | cli/flags.rs:172-196 | Every subcommand's name looks up that same subcommand. |
| Cli.SpelledAsNames | cli/flags.rs:35-88 | The presence query for a string answers for exactly the arguments and subcommands whose name is that string. |
| Cli.Present | cli/flags.rs:35-88 | An argument is reported present exactly when it was given as a switch, given a value, or is spelled by a selected script's name. The name `info` is reported present exactly when `info` is selected, and the same holds for `eval` and `fmt`: this is how they reach the record (lines 80-88). Otherwise a subcommand name is present only when a selected script's name spells it. |
| Cli.RestArgv | cli/flags.rs:206-241 | The forwarded list always starts with the program name. It is the program name alone exactly when nothing, or `fmt` with no files, was selected. |
| Cli.PresentDeclared | cli/flags.rs:227-239 | The corrected presence query differs from the one as written only by the names a script's own name spells. Under a script, it is the query with no subcommand selected. |
| Cli.ScriptNameCountsAsPresent | cli/flags.rs:62 | As written, a script named `allow-all` makes `allow-all` present. The corrected query does not report it. |
| Engine.Split | cli/flags.rs:249-257 | The corrected calls read a `--v8-flags` value as a comma-separated list of options. Splitting it at the delimiter gives at least one piece, no piece contains the delimiter, and joining the pieces gives the value back. |
| Engine.SplitJoin | cli/flags.rs:249-257 | Joining delimiter-free pieces and splitting again gives the same pieces: the split loses nothing. |
| Engine.V8FlagsArgv | cli/flags.rs:249-256 | The engine list as written is one longer than the values, holds the program name at index 1, and removing it leaves the values in their original order. |
| Engine.V8FlagsArgvIntended | cli/flags.rs:243-256 | The corrected engine list is the program name followed by every value, the layout the `--v8-options` list uses. |
| Engine.FirstValueTakesProgramSlot | cli/flags.rs:246-256 | As written, the first value lands in the program-name slot. The slots after it are exactly the values only when the first value is the program name itself. |
| Engine.SingleV8FlagIsLost | cli/flags.rs:249-257 | `--v8-flags=--expose-gc`, one option, reaches the engine as `["--expose-gc", "deno"]` as written, and as `["deno", "--expose-gc"]` once corrected. |
| Engine.EngineCalls | cli/flags.rs:243-258 | The engine calls panic exactly when `v8-flags` is reported present without a value. Otherwise there is one call per engine option present, the `--v8-options` list first. The last is the `--v8-flags` list: the whole recorded value as one piece, then the program name, since the declaration (lines 158-163) does not ask the parser to split the value. |
| Engine.EngineCallsIntended | cli/flags.rs:243-258 | The corrected calls never panic. The value list puts the program name first and then the value's comma-separated pieces, which join back to the value. |
| Engine.IntendedCallsAgree | cli/flags.rs:243-258 | When the presence of `v8-flags` matches its value and that value is the program name itself, the calls as written equal the corrected ones. |
| Engine.V8FlagsValueAlone | cli/flags.rs:243-258 | When `v8-flags` with its value is the only name present, the only call as written is the whole value followed by the program name. The corrected call is the program name followed by the value's pieces. |
| Engine.CommaListStaysWhole | cli/flags.rs:249-257 | `--v8-flags=--expose-gc,--harmony` reaches the engine as the one option `--expose-gc,--harmony` before the program name. Corrected, it reaches it as `["deno", "--expose-gc", "--harmony"]`. |
| Classifier.IndexOf | cli/flags.rs:159-163 | The position found for `=` holds it and has none before it, and no position is found only when there is no `=`. |
| Classifier.Record | cli/flags.rs:106-171 | Recording a switch fails exactly when it was already given, and otherwise adds only that switch. |
| Classifier.RecordValue | cli/flags.rs:159-163 | Recording a `--v8-flags` value fails exactly when the value is empty or was already given, and otherwise stores only that value. |
| Classifier.LongToken | cli/flags.rs:106-171 | A long token keeps the report consistent (switches without values, non-empty values only for value-taking arguments) and never changes the selection. |
| Classifier.ShortCluster | cli/flags.rs:107-153 | A short cluster keeps the report consistent and never changes the selection. |
| Classifier.CheckValues | cli/flags.rs:172-191 | A subcommand's values are accepted exactly when their count fits its arity and none of them looks like a flag. |
| Classifier.Select | cli/flags.rs:172-196 | A word that is no declared subcommand starts a script with every remaining token as its arguments. A declared one succeeds exactly when its values fit its arity and none looks like a flag. Then `info` selects `Info` of its one file, `eval` selects `Eval` of its one code string, `fmt` selects `Fmt` of all its files, and the placeholder selects a script of its own name. |
| Classifier.ParseTokens | cli/flags.rs:98-200 | Classifying tokens from a consistent report yields a consistent report. |
| Classifier.Parse | cli/flags.rs:208 | Every report the parser accepts is consistent. |
| Classifier.LongSwitchStep | cli/flags.rs:106-171 | A long switch token is classified as recording its own switch, then the rest. |
| Classifier.LongFlagsAccumulate | cli/flags.rs:106-171 | Distinct long switches are recorded one by one: classifying them and the rest equals classifying the rest with all of them recorded. |
| Classifier.FlagOrderIrrelevant | cli/flags.rs:31-92 | The order in which distinct switches are given does not matter, only which ones are given. |
| Classifier.RepeatedFlagRejected | cli/flags.rs:106-171 | A switch given twice is rejected as repeated, whatever follows. |
| Classifier.ClusterAsLongForms | cli/flags.rs:107-153 | The letters of a short cluster are recorded exactly as their long forms would be, errors included. |
| Classifier.ShortIsSwitchLetter | cli/flags.rs:107-153 | Every declared short letter is a switch letter: not a dash, not the help letter, and not a value-taking argument. |
| Classifier.ShortStep | cli/flags.rs:150-153 | A one-letter short token records its switch, as `-r` in the second and third tests. |
| Classifier.ShortPairStep | cli/flags.rs:145-153 | A two-letter cluster records both switches, as `-Dr` in the fourth test. |
| Classifier.ShortClusterIsLongForms | cli/flags.rs:107-153 | `-<letters>` means the same as the long forms of its letters, so `-Dr` means `--log-debug --reload`. |
| Classifier.ShortAfterLongs | cli/flags.rs:107-153 | A short cluster still means its letters' long forms after any distinct long switches. |
| Classifier.PassthroughIsVerbatim | cli/flags.rs:227-238 | The first word that is neither a flag nor a subcommand starts a script, and it and every later token are kept verbatim. |
| Classifier.ReparseKeepsSelection | cli/flags.rs:227-238 | Classifying a script's forwarded list again selects the same script with the same arguments and no switches. |
| Classifier.SubcommandArity | cli/flags.rs:172-196 | A declared subcommand is accepted exactly when its values fit its arity: `info` and `eval` one, `fmt` one or more, the placeholder none, none flag-like. |
| Classifier.SubcommandRestArgv | cli/flags.rs:211-226 | The forwarded list after an accepted subcommand is the program name, then its values in order. The placeholder passes on its own name, as a script would. |
| Classifier.NoNameHasEquals | cli/flags.rs:106-171 | No long spelling contains `=`, so `--<name>=<value>` is never itself a spelling. |
| Classifier.IndexOfAfter | cli/flags.rs:159-163 | The first `=` after an `=`-free name is found right after the name. |
| Classifier.ValueToken | cli/flags.rs:158-163 | `--v8-flags=<value>` records exactly that value. |
| Invocation.Finish | cli/flags.rs:206-261 | After an accepted command line the parser does not exit. The call panics exactly when `v8-flags` is reported present without a value. A normal return forwards a list that starts with the program name. |
| Invocation.SetFlags | cli/flags.rs:203-261 | The process exits exactly when the parser rejects the command line, with the parser's error. Otherwise the outcome is that of the accepted report. |
| Invocation.FinishIntended | cli/flags.rs:206-261 | With the corrections an accepted command line always returns, with a forwarded list that starts with the program name. |
| Invocation.SetFlagsIntended | cli/flags.rs:203-261 | With the corrections the call never panics, and exits exactly when the parser rejects. |
| Invocation.ArgNames | cli/flags.rs:35-79 | The names of a set of arguments are exactly those arguments' names, and no subcommand's. |
| Invocation.ScriptModeMatches | cli/flags.rs:227-238 | Distinct long switches then a script word classify as exactly those switches, no values, and that script with the remaining tokens. |
| Invocation.ScriptFinish | cli/flags.rs:206-261 | Once switches and an ordinary script were accepted, the record holds exactly the switches. Only a `--v8-options` call is made, and only if asked. The script gets the program name, its own name and its arguments. |
| Invocation.ScriptModeEndToEnd | cli/flags.rs:203-261 | End to end, for any distinct long switches before an ordinary script, the outcome is as in `ScriptFinish`. |
| Invocation.IntendedIgnoresScriptName | cli/flags.rs:227-239 | Once corrected, the record after a script is that of the switches alone, whatever the script is called. |
| Invocation.IntendedAgreesAwayFromQuirks | cli/flags.rs:203-261 | When no script is named like a catalog entry and no `--v8-flags` value is given, the code as written and the corrected code have the same outcome. |
| Invocation.ModeFinish | cli/flags.rs:206-226 | After `info`, `eval` or `fmt` alone was accepted, no engine call is made. The record is built from the subcommand's own name and the forwarded list from its values. The corrected code gives the same outcome. |
| Invocation.InfoEndToEnd | cli/flags.rs:215-218 | `deno info <file>` turns on only `info` and forwards `["deno", file]`, as written and corrected. |
| Invocation.EvalEndToEnd | cli/flags.rs:211-214 | `deno eval <code>` turns on only `eval` and forwards `["deno", code]`, as written and corrected. |
| Invocation.FmtEndToEnd | cli/flags.rs:219-226 | `deno fmt <files>` turns on only `fmt` and forwards `"deno"` followed by the files in order, as written and corrected. |
| Invocation.ScriptAlone | cli/flags.rs:227-238 | A lone script word selects that script with nothing present. |
| Invocation.AllowAllScriptFinish | cli/flags.rs:62-70 | After a script named `allow-all`, the record as written is the `allow-all` record. The corrected record is the default. |
| Invocation.ScriptNamedAllowAll | cli/flags.rs:62-70 | `deno allow-all` runs a script called `allow-all` with all six permissions granted. The corrected code grants none. |
| Invocation.ScriptNamedV8FlagsPanics | cli/flags.rs:249-252 | `deno v8-flags` panics as written, on the value it unwraps. The corrected code returns. |
| Invocation.V8FlagsMatches | cli/flags.rs:158-163 | `--v8-flags=<value>` before a script classifies as that value alone, and that script. |
| Invocation.V8FlagsAlonePresent | cli/flags.rs:249 | After `--v8-flags=<value>` and an ordinary script, only `v8-flags` is present, under either presence query. |
| Invocation.V8FlagsFinish | cli/flags.rs:249-261 | Once `--v8-flags=<value>` and a script were accepted, the engine receives the whole value followed by the program name; corrected, the program name followed by the value's comma-separated pieces. The record stays the default and the script's list is unchanged. |
| Invocation.V8FlagsEndToEnd | cli/flags.rs:249-261 | End to end, `--v8-flags=<value>` hands the engine the whole value, then the program name. Corrected, the program name comes first and the value is cut at commas. Nothing else changes. |
| Invocation.SwitchesOnlyEndToEnd | cli/flags.rs:203-261 | Distinct long switches with no script give exactly those switches, only the `--v8-options` call if asked, and the program name alone as the forwarded list. |
| Invocation.OneSwitchEndToEnd | cli/flags.rs:264-275 | A single long switch other than the engine ones gives its record and the program name alone. |
| Invocation.OneSwitchScript | cli/flags.rs:336-348 | A single long switch before an ordinary script gives its record, and forwards the script and its arguments untouched. |
| Invocation.VersionAlone | cli/flags.rs:264-275 | `deno --version` gives only `version` and the list `["deno"]`. |
| Invocation.SeparateShortSwitchesParse | cli/flags.rs:277-281 | `-r -D script.ts` classifies as `reload` and `log-debug` with the script `script.ts`. |
| Invocation.SeparateShortSwitches | cli/flags.rs:277-290 | `deno -r -D script.ts` gives `log-debug` and `reload` and the list `["deno", "script.ts"]`. |
| Invocation.ShortAndLongSwitchesParse | cli/flags.rs:292-296 | `-r --allow-write script.ts` classifies as `reload` and `allow-write` with the script `script.ts`. |
| Invocation.ShortAndLongSwitches | cli/flags.rs:292-305 | `deno -r --allow-write script.ts` gives `reload` and `allow-write` and the list `["deno", "script.ts"]`. |
| Invocation.CombinedShortSwitchesParse | cli/flags.rs:307-311 | `-Dr --allow-write script.ts` classifies as `log-debug`, `reload` and `allow-write` with the script `script.ts`. |
| Invocation.CombinedShortSwitches | cli/flags.rs:307-321 | `deno -Dr --allow-write script.ts` gives `log-debug`, `reload` and `allow-write` and the list `["deno", "script.ts"]`. |
| Invocation.TypesAlone | cli/flags.rs:323-334 | `deno --types` gives only `types` and the list `["deno"]`. |
| Invocation.ScriptArgumentsPassThrough | cli/flags.rs:336-348 | `deno --allow-net gist.ts --title X` gives only `allow-net`. `--title X` belongs to the script and reaches it unchanged. |
| Invocation.AllowAllGrantsEveryPermission | cli/flags.rs:350-367 | `deno --allow-all gist.ts` turns on all six permissions and nothing else. |
| Invocation.AllowReadAlone | cli/flags.rs:369-381 | `deno --allow-read gist.ts` gives only read access. |
| Invocation.AllowHighPrecisionAlone | cli/flags.rs:383-395 | `deno --allow-high-precision script.ts` gives only high-precision timing. |

## Left out

- The argument-parser library is not part of this model. `Classifier` states the behaviour this catalog asks of it, and does not model:
  - its tokenizer;
  - help, version and usage rendering;
  - its error messages;
  - the process exit on a rejected command line, which `Exited` stands for.
- The parse error kinds are a summary. The library's exact error variants and their messages are not modelled.
- The catalog declares its own `--version`/`-v` (cli/flags.rs:107-109) and turns the library's `help` subcommand off (cli/flags.rs:104). A word `help` is therefore an ordinary script name in the model. The library's automatic `-h/--help` switch is modelled only as an exit (`HelpRequested`).
- `--`, the end-of-options marker, is not modelled: before a script word, and among a subcommand's values, it is rejected as an unknown argument. So `deno fmt -- a.ts` is rejected, where the library would take `a.ts` as a file. After a script word it passes through like any other token.
- A library-level detail is simplified: a subcommand's values are checked for flag-like tokens and arity, but the order in which the library reports competing errors is not.
- The `v8_set_flags` calls are a foreign call that changes process-wide engine state. Only the lists passed to them are modelled, as `Engine.EngineCalls`.
- Engine.EngineCalls: the `--v8-options` call prints the engine's help and ends the process (cli/flags.rs:244-246). That exit is not modelled: the model records the call and goes on to the `--v8-flags` step. Usually it then returns. When that step panics, as for `deno --v8-options v8-flags`, the outcome is `Panicked` and the recorded call is lost, where the program would already have exited at line 246 without reaching the unwrap at line 252.
- The declaration of `v8-flags` (cli/flags.rs:158-163) asks for no value delimiter and no repeated values. The model takes the parser library's default to be no splitting, so `values_of("v8-flags")` yields the whole value as one piece. That library is not part of this model.
- The environment-variable help text, the colour setting and the help strings are presentation only and are not modelled.
- The `svec!` test macro is not modelled. The tests' vectors are written as sequences of strings.
- The empty-string `values_of("")` lookup for a script's trailing arguments is modelled simply as the script's argument list.
- Cli.RestArgv: its contract states only the program-name head and when the list has no tail. The tail for each subcommand is stated by `Classifier.SubcommandRestArgv` and `Invocation.ScriptFinish`.
- Flags.FromPresent has no contract of its own. Its meaning is stated field by field by `Flags.FromPresentGrants` against the independent `Flags.Grants`.
- The declared `Err` arm of the result of `set_flags` is never produced by the code, so no outcome stands for it.

## Findings

| source | as written | input that shows it | evidently intended | confidence | as-written member | corrected member |
|---|---|---|---|---|---|---|
| cli/flags.rs:256 | `v8_flags.insert(1, "deno")` puts the program name after the first value, so the first value lands in the slot the engine reads as the program name. | `deno --v8-flags=--expose-gc script.ts` hands the engine `["--expose-gc", "deno"]`, and `--expose-gc` is ignored. | The program name first, as in the `--v8-options` list at line 246: `["deno", "--expose-gc"]`. | not executed | Engine.FirstValueTakesProgramSlot | Engine.V8FlagsArgvIntended |
| cli/flags.rs:251-256 | The `--v8-flags` value is collected without splitting, because the declaration at lines 158-163 asks for no delimiter. A comma-separated list of engine options therefore reaches the engine as one option. | `deno --v8-flags=--expose-gc,--harmony script.ts` hands the engine `["--expose-gc,--harmony", "deno"]`. | A comma-separated list of options, one engine option per piece, after the program name: `["deno", "--expose-gc", "--harmony"]`. | not executed; rests on the parser library's default of not splitting a value | Engine.CommaListStaysWhole | Engine.EngineCallsIntended |
| cli/flags.rs:62 | The presence query also answers yes for the selected subcommand's name, which `info`, `eval` and `fmt` rely on (lines 80-88). An external script's name counts too, so a script named like a switch turns that switch on. | `deno allow-all` runs a script named `allow-all` with every permission granted. `deno v8-flags` panics on the value it unwraps at line 252. | A script's name is never taken for a switch. | not executed | Invocation.ScriptNamedAllowAll | Invocation.IntendedIgnoresScriptName |

=== FILE: catalog.dfy ===
/**
  The declarative catalog of the command line: every global argument with its
  spellings, and the subcommands with the positional values they require.
  This is the data that `create_cli_app` hands to the argument parser; it has
  no behaviour of its own beyond looking spellings up.
 */
module Catalog {
  import opened Wrappers

  /** The binary name, also the first element of every forwarded argument list. */
  const Program: string := "deno"

  /** The global arguments, in declaration order. */
  datatype ArgId =
    | Version | AllowRead | AllowWrite | AllowNet | AllowEnv | AllowRun
    | AllowHighPrecision | AllowAll | NoPrompt | LogDebug | Reload
    | V8Options | V8Flags | Types | Prefetch
  {
    /** The argument's name, which is also its long spelling (`--<name>`). */
    function Name(): string {
      match this
      case Version => "version"
      case AllowRead => "allow-read"
      case AllowWrite => "allow-write"
      case AllowNet => "allow-net"
      case AllowEnv => "allow-env"
      case AllowRun => "allow-run"
      case AllowHighPrecision => "allow-high-precision"
      case AllowAll => "allow-all"
      case NoPrompt => "no-prompt"
      case LogDebug => "log-debug"
      case Reload => "reload"
      case V8Options => "v8-options"
      case V8Flags => "v8-flags"
      case Types => "types"
      case Prefetch => "prefetch"
    }

    /** The one-letter spelling (`-<c>`), for the four arguments that have one. */
    function Short(): Option<char> {
      match this
      case Version => Some('v')
      case AllowAll => Some('A')
      case LogDebug => Some('D')
      case Reload => Some('r')
      case _ => None
    }

    /** Only `v8-flags` takes a value, and only in the `--v8-flags=<value>` form. */
    predicate TakesValue() {
      this == V8Flags
    }
  }

  /** The argument whose long spelling is `long`, if any. */
  function FromLong(long: string): (r: Option<ArgId>)
    ensures r.Some? ==> r.value.Name() == long
    ensures r.None? ==> forall id: ArgId :: id.Name() != long
  {
    match long
    case "version" => Some(Version)
    case "allow-read" => Some(AllowRead)
    case "allow-write" => Some(AllowWrite)
    case "allow-net" => Some(AllowNet)
    case "allow-env" => Some(AllowEnv)
    case "allow-run" => Some(AllowRun)
    case "allow-high-precision" => Some(AllowHighPrecision)
    case "allow-all" => Some(AllowAll)
    case "no-prompt" => Some(NoPrompt)
    case "log-debug" => Some(LogDebug)
    case "reload" => Some(Reload)
    case "v8-options" => Some(V8Options)
    case "v8-flags" => Some(V8Flags)
    case "types" => Some(Types)
    case "prefetch" => Some(Prefetch)
    case _ => None
  }

  /** The argument whose short letter is `c`, if any. */
  function FromShort(c: char): (r: Option<ArgId>)
    ensures r.Some? ==> r.value.Short() == Some(c)
    ensures r.None? ==> forall id: ArgId :: id.Short() != Some(c)
  {
    match c
    case 'v' => Some(Version)
    case 'A' => Some(AllowAll)
    case 'D' => Some(LogDebug)
    case 'r' => Some(Reload)
    case _ => None
  }

  /** Every long spelling looks its own argument up: the catalog has no two arguments spelled alike. */
  lemma LongSpellingsAreUnique(id: ArgId)
    ensures FromLong(id.Name()) == Some(id)
  {
  }

  /** Every short letter looks its own argument up, and only `-v -A -D -r` exist. */
  lemma ShortSpellingsAreUnique(id: ArgId)
    ensures id.Short().Some? ==> FromShort(id.Short().value) == Some(id)
    ensures id.Short().Some? <==> id in {Version, AllowAll, LogDebug, Reload}
  {
  }

  /** The help switch the parser adds on its own (`-h`, `--help`); it prints help and exits. */
  const HelpShort: char := 'h'
  const HelpLong: string := "help"

  /** How many positional values a subcommand takes. */
  datatype Arity = ExactlyOne | OneOrMore | NoValues {

    /** May a subcommand that already took `taken` values take one more? */
    predicate AllowsMore(taken: nat) {
      match this
      case ExactlyOne => taken < 1
      case OneOrMore => true
      case NoValues => false
    }

    /** Is `count` values enough to satisfy the requirement? */
    predicate Enough(count: nat) {
      match this
      case ExactlyOne => count >= 1
      case OneOrMore => count >= 1
      case NoValues => true
    }
  }

  /**
    The declared subcommands. `ScriptPlaceholder` is the entry under which the
    help text lists the script to run; any other undeclared word is accepted as
    an external subcommand, that is, as a script.
   */
  datatype SubId = InfoCmd | EvalCmd | FmtCmd | ScriptPlaceholder {

    function Name(): string {
      match this
      case InfoCmd => "info"
      case EvalCmd => "eval"
      case FmtCmd => "fmt"
      case ScriptPlaceholder => "<script>"
    }

    /** The name of the subcommand's positional argument. */
    function ValueName(): string {
      match this
      case InfoCmd => "file"
      case EvalCmd => "code"
      case FmtCmd => "files"
      case ScriptPlaceholder => ""
    }

    function Arity(): Arity {
      match this
      case InfoCmd => ExactlyOne
      case EvalCmd => ExactlyOne
      case FmtCmd => OneOrMore
      case ScriptPlaceholder => NoValues
    }
  }

  /** The declared subcommand called `name`, if any. */
  function FromSubName(name: string): (r: Option<SubId>)
    ensures r.Some? ==> r.value.Name() == name
    ensures r.None? ==> forall s: SubId :: s.Name() != name
  {
    match name
    case "info" => Some(InfoCmd)
    case "eval" => Some(EvalCmd)
    case "fmt" => Some(FmtCmd)
    case "<script>" => Some(ScriptPlaceholder)
    case _ => None
  }

  /**
    A name the parser can report as present: a global argument, or a declared
    subcommand that was selected.
   */
  datatype Name = ArgName(arg: ArgId) | SubName(sub: SubId)

  /** Every subcommand name looks its own subcommand up. */
  lemma SubNamesAreUnique(s: SubId)
    ensures FromSubName(s.Name()) == Some(s)
  {
  }
}

=== FILE: classifier.dfy ===
/**
  An abstraction of the argument parser library for this program's catalog:
  how it classifies the raw tokens of an invocation into a `Matches` report.
  The library itself is not part of this model; this module states the
  behaviour the catalog asks of it: long switches, short switches alone or
  combined (`-Dr`), `--v8-flags=<value>`, the built-in subcommands with their
  positional values, and any other word starting a script whose following
  tokens pass through untouched.
 */
module Classifier {
  import opened Wrappers
  import C = Catalog
  import Cli

  /** Why the parser rejects an invocation; the library then prints a message and exits. */
  datatype ParseError =
      /** A flag-like token that names no declared argument. */
    | UnknownArgument(token: string)
      /** A required value is absent (`--v8-flags` without `=`, a subcommand without its values). */
    | MissingValue(name: string)
      /** `--v8-flags=` with nothing after the equals sign. */
    | EmptyValue(name: string)
      /** An argument that may occur once was given again. */
    | RepeatedArgument(name: string)
      /** A value beyond what a subcommand takes, or a value given to a switch. */
    | UnexpectedArgument(token: string)
      /** `-h` or `--help`: the parser prints help and exits. */
    | HelpRequested

  /** A token the parser reads as a flag: a dash followed by at least one character. */
  predicate LooksLikeFlag(t: string) {
    |t| >= 2 && t[0] == '-'
  }

  /** A long-form token, `--<body>`. */
  predicate IsLongToken(t: string) {
    |t| >= 2 && t[0] == '-' && t[1] == '-'
  }

  /** The error for a flag-like token where only values may appear. */
  function MisplacedFlag(t: string): ParseError {
    if t == "-" + [C.HelpShort] || t == "--" + C.HelpLong then HelpRequested else UnknownArgument(t)
  }

  /** The position of the first `c` in `s`, if any. */
  function IndexOf(s: string, c: char): (r: Option<nat>)
    ensures r.Some? ==> r.value < |s| && s[r.value] == c && c !in s[..r.value]
    ensures r.None? ==> c !in s
  {
    if |s| == 0 then None
    else if s[0] == c then Some(0)
    else match IndexOf(s[1..], c)
      case None => None
      case Some(k) =>
        assert s[..k + 1] == [s[0]] + s[1..][..k];
        Some(k + 1)
  }

  /** Record a switch; a switch may be given only once. */
  function Record(id: C.ArgId, m: Cli.Matches): (r: Result<Cli.Matches, ParseError>)
    ensures r.Err? <==> id in m.args
    ensures r.Ok? ==> r.value.args == m.args + {id} && r.value.values == m.values && r.value.sub == m.sub
  {
    if id in m.args then Err(RepeatedArgument(id.Name()))
    else Ok(m.(args := m.args + {id}))
  }

  /** Record the value of a value-taking argument; it must be non-empty and given only once. */
  function RecordValue(id: C.ArgId, value: string, m: Cli.Matches): (r: Result<Cli.Matches, ParseError>)
    ensures r.Err? <==> value == "" || id in m.values
    ensures r.Ok? ==> r.value.values == m.values[id := value] && r.value.args == m.args && r.value.sub == m.sub
  {
    if value == "" then Err(EmptyValue(id.Name()))
    else if id in m.values then Err(RepeatedArgument(id.Name()))
    else Ok(m.(values := m.values[id := value]))
  }

  /** A long-form token `--<body>`. */
  function LongToken(body: string, m: Cli.Matches): (r: Result<Cli.Matches, ParseError>)
    ensures Cli.Consistent(m) && r.Ok? ==> Cli.Consistent(r.value) && r.value.sub == m.sub
  {
    match C.FromLong(body)
    case Some(id) =>
      if id.TakesValue() then Err(MissingValue(id.Name())) else Record(id, m)
    case None =>
      if body == C.HelpLong then Err(HelpRequested)
      else match IndexOf(body, '=')
        case None => Err(UnknownArgument("--" + body))
        case Some(k) =>
          match C.FromLong(body[..k])
          case None => Err(UnknownArgument("--" + body))
          case Some(id) =>
            if id.TakesValue() then RecordValue(id, body[k + 1..], m)
            else Err(UnexpectedArgument("--" + body))
  }

  /** The letters of a short-form token `-<letters>`, each a switch of its own. */
  function ShortCluster(letters: string, m: Cli.Matches): (r: Result<Cli.Matches, ParseError>)
    ensures Cli.Consistent(m) && r.Ok? ==> Cli.Consistent(r.value) && r.value.sub == m.sub
    decreases |letters|
  {
    if |letters| == 0 then Ok(m)
    else if letters[0] == C.HelpShort then Err(HelpRequested)
    else match C.FromShort(letters[0])
      case None => Err(UnknownArgument(['-', letters[0]]))
      case Some(id) =>
        if id.TakesValue() then Err(MissingValue(id.Name()))
        else
          var m' :- Record(id, m);
          ShortCluster(letters[1..], m')
  }

  /** How many values fit an arity. */
  predicate Admits(arity: C.Arity, n: nat) {
    match arity
    case ExactlyOne => n == 1
    case OneOrMore => n >= 1
    case NoValues => n == 0
  }

  /**
    The values after a subcommand name, checked one by one as the parser
    meets them: a flag-like token is rejected, a value beyond the arity is
    unexpected, and running out before enough values is a missing value.
    `taken` values were already accepted.
   */
  function CheckValues(sub: C.SubId, rest: seq<string>, taken: nat): (r: Option<ParseError>)
    requires taken == 0 || sub.Arity().AllowsMore(taken - 1)
    ensures r.None? <==>
              && Admits(sub.Arity(), taken + |rest|)
              && forall i :: 0 <= i < |rest| ==> !LooksLikeFlag(rest[i])
    decreases |rest|
  {
    if |rest| == 0 then
      if sub.Arity().Enough(taken) then None else Some(MissingValue(sub.ValueName()))
    else if LooksLikeFlag(rest[0]) then Some(MisplacedFlag(rest[0]))
    else if !sub.Arity().AllowsMore(taken) then Some(UnexpectedArgument(rest[0]))
    else
      var r := CheckValues(sub, rest[1..], taken + 1);
      assert forall i :: 1 <= i < |rest| ==> rest[i] == rest[1..][i - 1];
      r
  }

  /**
    The first token that is not a flag selects: a declared subcommand takes
    its values from the remaining tokens; any other word is a script and
    every remaining token becomes its argument, unexamined.
   */
  function Select(word: string, rest: seq<string>): (r: Result<Cli.Selection, ParseError>)
    ensures C.FromSubName(word).None? ==> r == Ok(Cli.Script(word, rest))
    ensures C.FromSubName(word).Some? ==>
              (r.Ok? <==>
                 && Admits(C.FromSubName(word).value.Arity(), |rest|)
                 && forall i :: 0 <= i < |rest| ==> !LooksLikeFlag(rest[i]))
    ensures r.Ok? && C.FromSubName(word) == Some(C.InfoCmd) ==> |rest| == 1 && r.value == Cli.Info(rest[0])
    ensures r.Ok? && C.FromSubName(word) == Some(C.EvalCmd) ==> |rest| == 1 && r.value == Cli.Eval(rest[0])
    ensures r.Ok? && C.FromSubName(word) == Some(C.FmtCmd) ==> r.value == Cli.Fmt(rest)
    ensures r.Ok? && C.FromSubName(word) == Some(C.ScriptPlaceholder) ==> r.value == Cli.Script(word, [])
  {
    match C.FromSubName(word)
    case None => Ok(Cli.Script(word, rest))
    case Some(sub) =>
      match CheckValues(sub, rest, 0)
      case Some(e) => Err(e)
      case None =>
        match sub
        case InfoCmd => Ok(Cli.Info(rest[0]))
        case EvalCmd => Ok(Cli.Eval(rest[0]))
        case FmtCmd => Ok(Cli.Fmt(rest))
        case ScriptPlaceholder => Ok(Cli.Script(word, []))
  }

  /** Classify the tokens left to right, up to and including the selecting word. */
  function ParseTokens(tokens: seq<string>, m: Cli.Matches): (r: Result<Cli.Matches, ParseError>)
    ensures Cli.Consistent(m) && r.Ok? ==> Cli.Consistent(r.value)
    decreases |tokens|
  {
    if |tokens| == 0 then Ok(m)
    else if IsLongToken(tokens[0]) then
      var m' :- LongToken(tokens[0][2..], m);
      ParseTokens(tokens[1..], m')
    else if LooksLikeFlag(tokens[0]) then
      var m' :- ShortCluster(tokens[0][1..], m);
      ParseTokens(tokens[1..], m')
    else
      var sel :- Select(tokens[0], tokens[1..]);
      Ok(m.(sub := sel))
  }

  /** `get_matches_from`: the first element is the binary name and is skipped. */
  function Parse(argv: seq<string>): (r: Result<Cli.Matches, ParseError>)
    ensures r.Ok? ==> Cli.Consistent(r.value)
  {
    ParseTokens(if |argv| == 0 then [] else argv[1..], Cli.Empty)
  }

  /** The long spellings `--<name>` of a list of arguments, in order. */
  function LongTokens(ids: seq<C.ArgId>): (ts: seq<string>)
    ensures |ts| == |ids|
    ensures forall i :: 0 <= i < |ids| ==> ts[i] == "--" + ids[i].Name()
  {
    if |ids| == 0 then [] else ["--" + ids[0].Name()] + LongTokens(ids[1..])
  }

  /** A list of switches, each given at most once. */
  predicate DistinctSwitches(ids: seq<C.ArgId>) {
    && (forall i :: 0 <= i < |ids| ==> !ids[i].TakesValue())
    && (forall i, j :: 0 <= i < j < |ids| ==> ids[i] != ids[j])
  }

  /** The long forms of the switches named by the letters of a short cluster. */
  function LongForms(letters: string): (ts: seq<string>)
    requires forall i :: 0 <= i < |letters| ==> C.FromShort(letters[i]).Some?
    ensures |ts| == |letters|
  {
    if |letters| == 0 then []
    else ["--" + C.FromShort(letters[0]).value.Name()] + LongForms(letters[1..])
  }

  /** The outcome of classifying `rest` once an earlier step produced `r`. */
  function Then(r: Result<Cli.Matches, ParseError>, rest: seq<string>): Result<Cli.Matches, ParseError> {
    match r
    case Err(e) => Err(e)
    case Ok(m) => ParseTokens(rest, m)
  }

  /** One long switch token is classified as recording that switch. */
  lemma LongSwitchStep(id: C.ArgId, rest: seq<string>, m: Cli.Matches)
    requires !id.TakesValue()
    ensures ParseTokens(["--" + id.Name()] + rest, m) == Then(Record(id, m), rest)
  {
    var t := "--" + id.Name();
    assert t[2..] == id.Name();
    C.LongSpellingsAreUnique(id);
    assert ([t] + rest)[1..] == rest;
  }

  /**
    Distinct long switches are recorded one by one: classifying them and then
    the rest is the same as classifying the rest with all of them recorded.
   */
  lemma {:induction false} LongFlagsAccumulate(ids: seq<C.ArgId>, rest: seq<string>, m: Cli.Matches)
    requires DistinctSwitches(ids)
    requires forall i :: 0 <= i < |ids| ==> ids[i] !in m.args
    ensures ParseTokens(LongTokens(ids) + rest, m)
            == ParseTokens(rest, m.(args := m.args + set id | id in ids))
    decreases |ids|
  {
    if |ids| == 0 {
      assert LongTokens(ids) + rest == rest;
      assert m.(args := m.args + set id | id in ids) == m;
    } else {
      var m1 := m.(args := m.args + {ids[0]});
      var tail := LongTokens(ids[1..]) + rest;
      assert LongTokens(ids) + rest == ["--" + ids[0].Name()] + tail;
      assert ParseTokens(LongTokens(ids) + rest, m) == ParseTokens(tail, m1) by {
        LongSwitchStep(ids[0], tail, m);
        assert Record(ids[0], m) == Ok(m1);
      }
      TailSwitches(ids, m);
      LongFlagsAccumulate(ids[1..], rest, m1);
      HeadThenTail(ids, m);
    }
  }

  /** Recording the head of a list and then its tail records the whole list. */
  lemma HeadThenTail(ids: seq<C.ArgId>, m: Cli.Matches)
    requires |ids| >= 1
    ensures var m1 := m.(args := m.args + {ids[0]});
            m1.(args := m1.args + set id | id in ids[1..]) == m.(args := m.args + set id | id in ids)
  {
    ElementsOfCons(ids);
  }

  /** The tail of a distinct switch list is distinct and unrecorded once its head is recorded. */
  lemma TailSwitches(ids: seq<C.ArgId>, m: Cli.Matches)
    requires |ids| >= 1 && DistinctSwitches(ids)
    requires forall i :: 0 <= i < |ids| ==> ids[i] !in m.args
    ensures DistinctSwitches(ids[1..])
    ensures forall i :: 0 <= i < |ids[1..]| ==> ids[1..][i] !in m.args + {ids[0]}
  {
    assert forall i :: 0 <= i < |ids[1..]| ==> ids[1..][i] == ids[i + 1];
  }

  /** The elements of a non-empty list: its head and the elements of its tail. */
  lemma ElementsOfCons<T>(xs: seq<T>)
    requires |xs| >= 1
    ensures (set x | x in xs) == {xs[0]} + set x | x in xs[1..]
  {
    assert xs == [xs[0]] + xs[1..];
  }

  /** Only the set of distinct switches given matters, not their order. */
  lemma FlagOrderIrrelevant(ids1: seq<C.ArgId>, ids2: seq<C.ArgId>, rest: seq<string>)
    requires DistinctSwitches(ids1) && DistinctSwitches(ids2)
    requires forall id :: id in ids1 <==> id in ids2
    ensures ParseTokens(LongTokens(ids1) + rest, Cli.Empty) == ParseTokens(LongTokens(ids2) + rest, Cli.Empty)
  {
    var s1 := set id | id in ids1;
    var s2 := set id | id in ids2;
    assert s1 == s2;
    LongFlagsAccumulate(ids1, rest, Cli.Empty);
    LongFlagsAccumulate(ids2, rest, Cli.Empty);
    assert Cli.Empty.(args := Cli.Empty.args + s1) == Cli.Empty.(args := Cli.Empty.args + s2);
  }

  /** A switch given twice is rejected, whatever follows. */
  lemma RepeatedFlagRejected(id: C.ArgId, rest: seq<string>, m: Cli.Matches)
    requires !id.TakesValue()
    ensures ParseTokens(["--" + id.Name(), "--" + id.Name()] + rest, m) == Err(RepeatedArgument(id.Name()))
  {
    var t := "--" + id.Name();
    LongSwitchStep(id, [t] + rest, m);
    assert [t, t] + rest == [t] + ([t] + rest);
    if id !in m.args {
      LongSwitchStep(id, rest, m.(args := m.args + {id}));
    }
  }

  /**
    The letters of a short cluster are recorded one by one, exactly as their
    long forms would be, errors included.
   */
  lemma {:induction false} ClusterAsLongForms(letters: string, rest: seq<string>, m: Cli.Matches)
    requires forall i :: 0 <= i < |letters| ==> C.FromShort(letters[i]).Some?
    ensures Then(ShortCluster(letters, m), rest) == ParseTokens(LongForms(letters) + rest, m)
    decreases |letters|
  {
    if |letters| == 0 {
      assert LongForms(letters) + rest == rest;
    } else {
      var id := C.FromShort(letters[0]).value;
      assert letters[0] != C.HelpShort;
      assert !id.TakesValue();
      var tail := LongForms(letters[1..]) + rest;
      assert LongForms(letters) + rest == ["--" + id.Name()] + tail;
      LongSwitchStep(id, tail, m);
      if id !in m.args {
        ClusterAsLongForms(letters[1..], rest, m.(args := m.args + {id}));
      }
    }
  }

  /** A short spelling is a letter of a switch, never a dash or the help letter. */
  lemma ShortIsSwitchLetter(c: char)
    requires C.FromShort(c).Some?
    ensures c != '-' && c != C.HelpShort && !C.FromShort(c).value.TakesValue()
  {
    var id := C.FromShort(c).value;
    assert id.Short() == Some(c);
  }

  /** A one-letter short token records its switch. */
  lemma ShortStep(c: char, rest: seq<string>, m: Cli.Matches)
    requires C.FromShort(c).Some? && C.FromShort(c).value !in m.args
    ensures ParseTokens([['-', c]] + rest, m)
            == ParseTokens(rest, m.(args := m.args + {C.FromShort(c).value}))
  {
    var t := ['-', c];
    var m1 := m.(args := m.args + {C.FromShort(c).value});
    ShortIsSwitchLetter(c);
    assert t[1..] == [c];
    assert [c][1..] == [];
    assert ShortCluster([c], m) == Ok(m1);
    assert LooksLikeFlag(t) && !IsLongToken(t);
    assert ([t] + rest)[0] == t && ([t] + rest)[1..] == rest;
  }

  /** A two-letter short cluster records both switches. */
  lemma ShortPairStep(c: char, d: char, rest: seq<string>, m: Cli.Matches)
    requires C.FromShort(c).Some? && C.FromShort(d).Some?
    requires C.FromShort(c).value != C.FromShort(d).value
    requires C.FromShort(c).value !in m.args && C.FromShort(d).value !in m.args
    ensures ParseTokens([['-', c, d]] + rest, m)
            == ParseTokens(rest, m.(args := m.args + {C.FromShort(c).value} + {C.FromShort(d).value}))
  {
    var t := ['-', c, d];
    var m1 := m.(args := m.args + {C.FromShort(c).value});
    var m2 := m1.(args := m1.args + {C.FromShort(d).value});
    ShortIsSwitchLetter(c);
    ShortIsSwitchLetter(d);
    assert t[1..] == [c, d];
    assert [c, d][1..] == [d];
    assert [d][1..] == [];
    assert ShortCluster([d], m1) == Ok(m2);
    assert ShortCluster([c, d], m) == Ok(m2);
    assert LooksLikeFlag(t) && !IsLongToken(t);
    assert ([t] + rest)[0] == t && ([t] + rest)[1..] == rest;
  }

  /** `-Dr` means `--log-debug --reload`: a short cluster is its letters' long forms. */
  lemma ShortClusterIsLongForms(letters: string, rest: seq<string>, m: Cli.Matches)
    requires |letters| >= 1
    requires forall i :: 0 <= i < |letters| ==> C.FromShort(letters[i]).Some?
    ensures ParseTokens(["-" + letters] + rest, m) == ParseTokens(LongForms(letters) + rest, m)
  {
    var t := "-" + letters;
    assert t[1..] == letters;
    assert !IsLongToken(t);
    assert ([t] + rest)[1..] == rest;
    ClusterAsLongForms(letters, rest, m);
  }

  /** A short cluster after distinct long switches still means its letters' long forms. */
  lemma ShortAfterLongs(ids: seq<C.ArgId>, letters: string, rest: seq<string>)
    requires DistinctSwitches(ids)
    requires |letters| >= 1
    requires forall i :: 0 <= i < |letters| ==> C.FromShort(letters[i]).Some?
    ensures ParseTokens(LongTokens(ids) + (["-" + letters] + rest), Cli.Empty)
            == ParseTokens(LongTokens(ids) + (LongForms(letters) + rest), Cli.Empty)
  {
    LongFlagsAccumulate(ids, ["-" + letters] + rest, Cli.Empty);
    LongFlagsAccumulate(ids, LongForms(letters) + rest, Cli.Empty);
    ShortClusterIsLongForms(letters, rest, Cli.Empty.(args := Cli.Empty.args + set id | id in ids));
  }

  /**
    The first word that is neither a flag nor a declared subcommand starts a
    script; it and every token after it are kept verbatim, even those that
    look like flags.
   */
  lemma PassthroughIsVerbatim(word: string, args: seq<string>, m: Cli.Matches)
    requires !LooksLikeFlag(word) && C.FromSubName(word).None?
    ensures ParseTokens([word] + args, m) == Ok(m.(sub := Cli.Script(word, args)))
  {
    assert ([word] + args)[1..] == args;
  }

  /**
    Re-classifying the argument list handed to a script gives the same
    selection back, with no switches: the list is a fixed point of the parser.
   */
  lemma ReparseKeepsSelection(word: string, args: seq<string>)
    requires !LooksLikeFlag(word) && C.FromSubName(word).None?
    ensures Parse(Cli.RestArgv(Cli.Script(word, args))) == Ok(Cli.Empty.(sub := Cli.Script(word, args)))
  {
    assert Cli.RestArgv(Cli.Script(word, args))[1..] == [word] + args;
    PassthroughIsVerbatim(word, args, Cli.Empty);
  }

  /**
    A declared subcommand checks its values: `info` and `eval` take exactly
    one, `fmt` one or more, the placeholder none, and none of them may look
    like a flag.
   */
  lemma SubcommandArity(sub: C.SubId, values: seq<string>)
    ensures ParseTokens([sub.Name()] + values, Cli.Empty).Ok? <==>
              && Admits(sub.Arity(), |values|)
              && forall i :: 0 <= i < |values| ==> !LooksLikeFlag(values[i])
  {
    C.SubNamesAreUnique(sub);
    assert ([sub.Name()] + values)[1..] == values;
    assert !LooksLikeFlag(sub.Name());
  }

  /**
    The engine receives exactly the values a declared subcommand accepted,
    after the program name; the placeholder passes its own name on, as a
    script would.
   */
  lemma SubcommandRestArgv(sub: C.SubId, values: seq<string>)
    requires ParseTokens([sub.Name()] + values, Cli.Empty).Ok?
    ensures Cli.RestArgv(ParseTokens([sub.Name()] + values, Cli.Empty).value.sub)
            == [C.Program] + (if sub == C.ScriptPlaceholder then [sub.Name()] else values)
  {
    C.SubNamesAreUnique(sub);
    assert ([sub.Name()] + values)[1..] == values;
    assert !LooksLikeFlag(sub.Name());
    match sub
    case InfoCmd =>
      assert values == [values[0]];
    case EvalCmd =>
      assert values == [values[0]];
    case FmtCmd =>
    case ScriptPlaceholder =>
      assert values == [];
  }

  /** No long spelling contains an equals sign, so `--<name>=<value>` never names an argument. */
  lemma NoNameHasEquals(id: C.ArgId)
    ensures '=' !in id.Name()
  {
  }

  /** The first `c` after a prefix free of `c` is found right after the prefix. */
  lemma {:induction false} IndexOfAfter(prefix: string, c: char, rest: string)
    requires c !in prefix
    ensures IndexOf(prefix + [c] + rest, c) == Some(|prefix|)
    decreases |prefix|
  {
    var s := prefix + [c] + rest;
    if |prefix| > 0 {
      assert s[0] == prefix[0];
      assert s[1..] == prefix[1..] + [c] + rest;
      assert c !in prefix[1..] by {
        assert forall i :: 0 <= i < |prefix[1..]| ==> prefix[1..][i] == prefix[i + 1];
      }
      IndexOfAfter(prefix[1..], c, rest);
    }
  }

  /** `--<name>=<value>` for a value-taking argument records the value, as the parser requires. */
  lemma ValueToken(id: C.ArgId, value: string, m: Cli.Matches)
    requires id.TakesValue()
    ensures LongToken(id.Name() + "=" + value, m) == RecordValue(id, value, m)
  {
    var body := id.Name() + "=" + value;
    var k := |id.Name()|;
    forall a: C.ArgId ensures a.Name() != body {
      NoNameHasEquals(a);
      assert body[k] == '=';
      assert '=' in body;
    }
    assert C.FromLong(body).None?;
    assert body != C.HelpLong by {
      assert body[k] == '=';
    }
    NoNameHasEquals(id);
    IndexOfAfter(id.Name(), '=', value);
    assert body[..k] == id.Name();
    assert body[k + 1..] == value;
    C.LongSpellingsAreUnique(id);
  }
}

=== FILE: cli.dfy ===
/**
  What the argument parser reports, and the part of `set_flags` that turns it
  into the flags record and the argument list forwarded to the script engine.
 */
module Cli {
  import C = Catalog
  import F = Flags

  /** Which subcommand was selected, with the values it captured. */
  datatype Selection =
    | NoSub
    | Eval(code: string)
    | Info(file: string)
    | Fmt(files: seq<string>)
      /** Any other word: the script to run and every token after it, untouched. */
    | Script(name: string, args: seq<string>)

  /**
    The parser's report: the switches present, the values of value-taking
    arguments, and the selection.
   */
  datatype Matches = Matches(args: set<C.ArgId>, values: map<C.ArgId, string>, sub: Selection)

  /**
    What the parser can report: switches never carry values, and every
    recorded value belongs to a value-taking argument and is non-empty.
   */
  predicate Consistent(m: Matches) {
    && (forall a :: a in m.args ==> !a.TakesValue())
    && (forall a :: a in m.values ==> a.TakesValue() && m.values[a] != "")
  }

  /** Nothing present, nothing selected. */
  const Empty: Matches := Matches({}, map[], NoSub)

  /** Every catalog name spelled `s`: the presence query compares names as strings. */
  function SpelledAs(s: string): set<C.Name> {
    (match C.FromLong(s) case Some(a) => {C.ArgName(a)} case None => {})
    + (match C.FromSubName(s) case Some(b) => {C.SubName(b)} case None => {})
  }

  /** The names spelled `s` are exactly the catalog entries whose name is `s`. */
  lemma SpelledAsNames(s: string, a: C.ArgId, b: C.SubId)
    ensures C.ArgName(a) in SpelledAs(s) <==> a.Name() == s
    ensures C.SubName(b) in SpelledAs(s) <==> b.Name() == s
  {
    C.LongSpellingsAreUnique(a);
    C.SubNamesAreUnique(b);
  }

  /**
    The names that answer to the selected subcommand's name. The presence
    query also answers yes for the name of the selected subcommand; this is
    how `info`, `eval` and `fmt` reach the record, and it applies to an
    external script's name as well.
   */
  function SelectedNames(sel: Selection): set<C.Name> {
    match sel
    case NoSub => {}
    case Eval(_) => {C.SubName(C.EvalCmd)}
    case Info(_) => {C.SubName(C.InfoCmd)}
    case Fmt(_) => {C.SubName(C.FmtCmd)}
    case Script(name, _) => SpelledAs(name)
  }

  /** Every name for which `matches.is_present(name)` holds. */
  function Present(m: Matches): (r: set<C.Name>)
    ensures forall a: C.ArgId :: C.ArgName(a) in r <==>
              a in m.args || a in m.values || C.ArgName(a) in SelectedNames(m.sub)
    ensures forall s: C.SubId :: C.SubName(s) in r <==> C.SubName(s) in SelectedNames(m.sub)
    ensures forall a: C.ArgId :: C.ArgName(a) in r <==>
              a in m.args || a in m.values || (m.sub.Script? && a.Name() == m.sub.name)
    ensures forall s: C.SubId :: C.SubName(s) in r <==>
              || (s == C.InfoCmd && m.sub.Info?)
              || (s == C.EvalCmd && m.sub.Eval?)
              || (s == C.FmtCmd && m.sub.Fmt?)
              || (m.sub.Script? && s.Name() == m.sub.name)
  {
    (set a | a in m.args :: C.ArgName(a))
    + (set a | a in m.values :: C.ArgName(a))
    + SelectedNames(m.sub)
  }

  /**
    The argument list for the script engine: the program name, then the
    values the selection captured, in their original order.
   */
  function RestArgv(sel: Selection): (r: seq<string>)
    ensures |r| >= 1 && r[0] == C.Program
    ensures |r| == 1 <==> sel.NoSub? || sel == Fmt([])
  {
    [C.Program] +
    match sel
    case Eval(code) => [code]
    case Info(file) => [file]
    case Fmt(files) => files
    case Script(name, args) => [name] + args
    case NoSub => []
  }

  /** The pair `set_flags` returns on success. */
  datatype Parsed = Parsed(flags: F.DenoFlags, restArgv: seq<string>)

  /**
    The corrected presence query: only declared arguments and
    declared subcommands count, so the name of a script never does.
   */
  function PresentDeclared(m: Matches): (r: set<C.Name>)
    ensures m.sub.Script? ==> Present(m) == r + SpelledAs(m.sub.name)
    ensures !m.sub.Script? ==> Present(m) == r
    ensures m.sub.Script? ==> r == Present(m.(sub := NoSub))
  {
    (set a | a in m.args :: C.ArgName(a))
    + (set a | a in m.values :: C.ArgName(a))
    + (if m.sub.Script? then {} else SelectedNames(m.sub))
  }

  /** As written, a script named like a switch turns that switch on: `deno allow-all`. */
  lemma ScriptNameCountsAsPresent(args: seq<string>)
    ensures C.ArgName(C.AllowAll) in Present(Empty.(sub := Script("allow-all", args)))
    ensures C.ArgName(C.AllowAll) !in PresentDeclared(Empty.(sub := Script("allow-all", args)))
  {
    C.LongSpellingsAreUnique(C.AllowAll);
  }
}

=== FILE: engine.dfy ===
/**
  The engine-option boundary of `set_flags`: the argument lists handed to the
  virtual machine's flag parser. The call itself mutates process-wide engine
  state and is not modelled; only the lists passed to it are.
 */
module Engine {
  import opened Wrappers
  import C = Catalog
  import Cli

  /**
    The delimiter of the comma-separated list a `--v8-flags` value stands
    for. The declaration of `v8-flags` does not ask the parser to split at a
    delimiter, so only the corrected calls cut the value here.
   */
  const ValueDelimiter: char := ','

  /** `parts` joined with `sep` between neighbours. */
  function Join(parts: seq<string>, sep: char): string
    requires |parts| >= 1
  {
    if |parts| == 1 then parts[0] else parts[0] + [sep] + Join(parts[1..], sep)
  }

  /** `s` cut at every `sep`; empty pieces are kept, so there is always at least one. */
  function Split(s: string, sep: char): (parts: seq<string>)
    ensures |parts| >= 1
    ensures forall i :: 0 <= i < |parts| ==> sep !in parts[i]
    ensures Join(parts, sep) == s
  {
    if |s| == 0 then [""]
    else
      var rest := Split(s[1..], sep);
      if s[0] == sep then
        assert s == [sep] + s[1..];
        [""] + rest
      else
        var parts := [[s[0]] + rest[0]] + rest[1..];
        assert parts[1..] == rest[1..];
        assert s == [s[0]] + s[1..];
        parts
  }

  /** Joining pieces free of `sep` and splitting again gives the pieces back. */
  lemma {:induction false} SplitJoin(parts: seq<string>, sep: char)
    requires |parts| >= 1
    requires forall i :: 0 <= i < |parts| ==> sep !in parts[i]
    ensures Split(Join(parts, sep), sep) == parts
    decreases |Join(parts, sep)|
  {
    var s := Join(parts, sep);
    if |parts[0]| == 0 {
      if |parts| > 1 {
        assert s == [sep] + Join(parts[1..], sep);
        assert s[1..] == Join(parts[1..], sep);
        SplitJoin(parts[1..], sep);
        assert parts == [""] + parts[1..];
      }
    } else {
      var c := parts[0][0];
      var shorter := [parts[0][1..]] + parts[1..];
      assert shorter[1..] == parts[1..];
      assert Join(shorter, sep) == s[1..] by {
        if |parts| == 1 {
        } else {
          assert s == parts[0] + [sep] + Join(parts[1..], sep);
        }
      }
      assert c != sep by {
        assert parts[0][0] in parts[0];
      }
      SplitJoin(shorter, sep);
      assert [[c] + shorter[0]] + shorter[1..] == parts by {
        assert [c] + parts[0][1..] == parts[0];
      }
    }
  }

  /** What the code builds for `--v8-options`: the program name, then the help request. */
  const V8OptionsArgv: seq<string> := [C.Program, "--v8-options"]

  /**
    The list built for `--v8-flags=<values>`: the values with the program
    name inserted at index 1, that is, after the first value. Inserting at
    index 1 needs at least one value; the parser hands over exactly one.
   */
  function V8FlagsArgv(values: seq<string>): (r: seq<string>)
    requires |values| >= 1
    ensures |r| == |values| + 1
    ensures r[1] == C.Program
    ensures r[..1] + r[2..] == values
  {
    values[..1] + [C.Program] + values[1..]
  }

  /**
    The corrected list: the program name in the first slot, where
    the engine's flag parser expects it (and where the `--v8-options` list
    puts it), followed by every value.
   */
  function V8FlagsArgvIntended(values: seq<string>): (r: seq<string>)
    ensures |r| == |values| + 1
    ensures r[0] == C.Program
    ensures r[1..] == values
  {
    [C.Program] + values
  }

  /**
    As written, the engine reads every slot after the first as an option, and
    those slots hold the user's values only when the first value happens to
    be the program name itself: otherwise the first value lands in the
    program-name slot.
   */
  lemma FirstValueTakesProgramSlot(values: seq<string>)
    requires |values| >= 1
    ensures V8FlagsArgv(values)[0] == values[0]
    ensures V8FlagsArgv(values)[1..] == values <==> values[0] == C.Program
  {
    var r := V8FlagsArgv(values);
    assert r[1..] == [C.Program] + values[1..];
    assert values == [values[0]] + values[1..];
  }

  /** `--v8-flags=--expose-gc` reaches the engine as `["--expose-gc", "deno"]`. */
  lemma SingleV8FlagIsLost()
    ensures V8FlagsArgv(["--expose-gc"]) == ["--expose-gc", "deno"]
    ensures V8FlagsArgvIntended(Split("--expose-gc", ValueDelimiter)) == ["deno", "--expose-gc"]
  {
    SplitJoin(["--expose-gc"], ValueDelimiter);
  }

  /**
    The calls `set_flags` makes into the engine, in order, or `None` when it
    would panic: the presence query can say `v8-flags` is present (a script
    of that name) while no value was recorded, and the value is then
    unwrapped. The recorded value is one piece, commas included.
   */
  function EngineCalls(m: Cli.Matches): (r: Option<seq<seq<string>>>)
    ensures r.None? <==> C.ArgName(C.V8Flags) in Cli.Present(m) && C.V8Flags !in m.values
    ensures r.Some? ==>
              |r.value| == (if C.ArgName(C.V8Options) in Cli.Present(m) then 1 else 0)
                           + (if C.V8Flags in m.values then 1 else 0)
    ensures r.Some? && C.ArgName(C.V8Options) in Cli.Present(m) ==> r.value[0] == V8OptionsArgv
    ensures r.Some? && C.V8Flags in m.values ==>
              r.value[|r.value| - 1] == [m.values[C.V8Flags], C.Program]
    ensures r.Some? && C.ArgName(C.V8Options) !in Cli.Present(m) && C.V8Flags !in m.values ==> r.value == []
  {
    var present := Cli.Present(m);
    var options := if C.ArgName(C.V8Options) in present then [V8OptionsArgv] else [];
    if C.ArgName(C.V8Flags) in present then
      if C.V8Flags in m.values then
        Some(options + [V8FlagsArgv([m.values[C.V8Flags]])])
      else None
    else Some(options)
  }

  /**
    The engine calls with the corrections: the presence of `v8-flags` is
    exactly the presence of its value, so there is nothing to panic on, the
    value is cut into its comma-separated pieces, and the program name takes
    the first slot.
   */
  function EngineCallsIntended(m: Cli.Matches): (r: seq<seq<string>>)
    ensures |r| == (if C.ArgName(C.V8Options) in Cli.PresentDeclared(m) then 1 else 0)
                   + (if C.V8Flags in m.values then 1 else 0)
    ensures C.ArgName(C.V8Options) in Cli.PresentDeclared(m) ==> r[0] == V8OptionsArgv
    ensures C.V8Flags in m.values ==>
              && |r[|r| - 1]| >= 2
              && r[|r| - 1][0] == C.Program
              && r[|r| - 1][1..] == Split(m.values[C.V8Flags], ValueDelimiter)
              && Join(r[|r| - 1][1..], ValueDelimiter) == m.values[C.V8Flags]
  {
    var present := Cli.PresentDeclared(m);
    var options := if C.ArgName(C.V8Options) in present then [V8OptionsArgv] else [];
    if C.V8Flags in m.values then options + [V8FlagsArgvIntended(Split(m.values[C.V8Flags], ValueDelimiter))]
    else options
  }

  /** Where neither correction matters, the corrected calls are the calls as written. */
  lemma IntendedCallsAgree(m: Cli.Matches)
    requires C.ArgName(C.V8Flags) in Cli.Present(m) <==> C.V8Flags in m.values
    requires C.ArgName(C.V8Options) in Cli.Present(m) <==> C.ArgName(C.V8Options) in Cli.PresentDeclared(m)
    requires C.V8Flags in m.values ==> m.values[C.V8Flags] == C.Program
    ensures EngineCalls(m) == Some(EngineCallsIntended(m))
  {
    if C.V8Flags in m.values {
      ProgramNameIsOnePiece();
      assert V8FlagsArgv([m.values[C.V8Flags]]) == V8FlagsArgvIntended(Split(m.values[C.V8Flags], ValueDelimiter))
             == [C.Program, C.Program];
    }
  }

  /** The program name holds no comma, so it is a single piece of a list. */
  lemma ProgramNameIsOnePiece()
    ensures Split(C.Program, ValueDelimiter) == [C.Program]
  {
    assert ValueDelimiter !in C.Program;
    SplitJoin([C.Program], ValueDelimiter);
  }

  /** The calls when `v8-flags`, with its value, is the only name present: the whole value as written, its pieces corrected. */
  lemma V8FlagsValueAlone(m: Cli.Matches)
    requires Cli.Present(m) == {C.ArgName(C.V8Flags)} && Cli.PresentDeclared(m) == {C.ArgName(C.V8Flags)}
    requires C.V8Flags in m.values
    ensures EngineCalls(m) == Some([[m.values[C.V8Flags], C.Program]])
    ensures EngineCallsIntended(m) == [[C.Program] + Split(m.values[C.V8Flags], ValueDelimiter)]
  {
    var value := m.values[C.V8Flags];
    assert V8FlagsArgv([value]) == [value, C.Program];
    assert [] + [V8FlagsArgv([value])] == [[value, C.Program]];
  }

  /**
    `--v8-flags=--expose-gc,--harmony` reaches the engine as one option
    `--expose-gc,--harmony` before the program name; corrected, it reaches
    it as two options after the program name.
   */
  lemma CommaListStaysWhole()
    ensures EngineCalls(Cli.Matches({}, map[C.V8Flags := "--expose-gc,--harmony"], Cli.NoSub))
            == Some([["--expose-gc,--harmony", "deno"]])
    ensures EngineCallsIntended(Cli.Matches({}, map[C.V8Flags := "--expose-gc,--harmony"], Cli.NoSub))
            == [["deno", "--expose-gc", "--harmony"]]
  {
    var m := Cli.Matches({}, map[C.V8Flags := "--expose-gc,--harmony"], Cli.NoSub);
    OnlyV8FlagsPresent("--expose-gc,--harmony");
    V8FlagsValueAlone(m);
    ExampleListSplits();
    assert [C.Program] + ["--expose-gc", "--harmony"] == ["deno", "--expose-gc", "--harmony"];
  }

  /** With nothing but a `--v8-flags` value, only `v8-flags` is present, under either query. */
  lemma OnlyV8FlagsPresent(value: string)
    ensures Cli.Present(Cli.Matches({}, map[C.V8Flags := value], Cli.NoSub)) == {C.ArgName(C.V8Flags)}
    ensures Cli.PresentDeclared(Cli.Matches({}, map[C.V8Flags := value], Cli.NoSub)) == {C.ArgName(C.V8Flags)}
  {
  }

  /** The example list has two pieces. */
  lemma ExampleListSplits()
    ensures Split("--expose-gc,--harmony", ValueDelimiter) == ["--expose-gc", "--harmony"]
  {
    var parts := ["--expose-gc", "--harmony"];
    assert Join(parts, ValueDelimiter) == "--expose-gc" + [ValueDelimiter] + "--harmony";
    assert "--expose-gc" + [ValueDelimiter] + "--harmony" == "--expose-gc,--harmony";
    assert ValueDelimiter !in parts[0] && ValueDelimiter !in parts[1];
    SplitJoin(parts, ValueDelimiter);
  }
}

=== FILE: flags.dfy ===
/**
  The typed flags record and its construction from the names the argument
  parser reports as present (`DenoFlags::from`).
 */
module Flags {
  import C = Catalog

  /** The fifteen switches of the record, one per field. */
  datatype Field =
    | LogDebug | Version | Reload
    | AllowRead | AllowWrite | AllowNet | AllowEnv | AllowRun | AllowHighPrecision
    | NoPrompts | Types | Prefetch | Info | Fmt | Eval
  {
    /** The six permission switches that `allow-all` turns on together. */
    predicate IsPermission() {
      AllowRead? || AllowWrite? || AllowNet? || AllowEnv? || AllowRun? || AllowHighPrecision?
    }

    /** The argument or subcommand whose presence turns this switch on. */
    function Key(): C.Name {
      match this
      case LogDebug => C.ArgName(C.ArgId.LogDebug)
      case Version => C.ArgName(C.ArgId.Version)
      case Reload => C.ArgName(C.ArgId.Reload)
      case AllowRead => C.ArgName(C.ArgId.AllowRead)
      case AllowWrite => C.ArgName(C.ArgId.AllowWrite)
      case AllowNet => C.ArgName(C.ArgId.AllowNet)
      case AllowEnv => C.ArgName(C.ArgId.AllowEnv)
      case AllowRun => C.ArgName(C.ArgId.AllowRun)
      case AllowHighPrecision => C.ArgName(C.ArgId.AllowHighPrecision)
      case NoPrompts => C.ArgName(C.ArgId.NoPrompt)
      case Types => C.ArgName(C.ArgId.Types)
      case Prefetch => C.ArgName(C.ArgId.Prefetch)
      case Info => C.SubName(C.InfoCmd)
      case Fmt => C.SubName(C.FmtCmd)
      case Eval => C.SubName(C.EvalCmd)
    }
  }

  /** The umbrella argument that stands for all six permissions. */
  const AllowAll: C.Name := C.ArgName(C.ArgId.AllowAll)

  /** The six individual permission arguments. */
  const Permissions: set<C.Name> := {
    C.ArgName(C.ArgId.AllowRead), C.ArgName(C.ArgId.AllowWrite), C.ArgName(C.ArgId.AllowNet),
    C.ArgName(C.ArgId.AllowEnv), C.ArgName(C.ArgId.AllowRun), C.ArgName(C.ArgId.AllowHighPrecision)
  }

  /** The runtime flags record; every field starts out false. */
  datatype DenoFlags = DenoFlags(
    logDebug: bool,
    version: bool,
    reload: bool,
    allowRead: bool,
    allowWrite: bool,
    allowNet: bool,
    allowEnv: bool,
    allowRun: bool,
    allowHighPrecision: bool,
    noPrompts: bool,
    types: bool,
    prefetch: bool,
    info: bool,
    fmt: bool,
    eval: bool)
  {
    /** The value of one field. */
    function Get(f: Field): bool {
      match f
      case LogDebug => logDebug
      case Version => version
      case Reload => reload
      case AllowRead => allowRead
      case AllowWrite => allowWrite
      case AllowNet => allowNet
      case AllowEnv => allowEnv
      case AllowRun => allowRun
      case AllowHighPrecision => allowHighPrecision
      case NoPrompts => noPrompts
      case Types => types
      case Prefetch => prefetch
      case Info => info
      case Fmt => fmt
      case Eval => eval
    }
  }

  /** The record with every field false (`DenoFlags::default()`). */
  const Default: DenoFlags :=
    DenoFlags(false, false, false, false, false, false, false, false,
              false, false, false, false, false, false, false)

  /**
    Reference reading of the mapping, field by field: a switch is on exactly
    when its own name is present, or when it is a permission and `allow-all`
    is present.
   */
  predicate Grants(present: set<C.Name>, f: Field) {
    f.Key() in present || (f.IsPermission() && AllowAll in present)
  }

  /**
    `DenoFlags::from`: each switch is on when the parser reports its name
    present; `allow-all` additionally turns on all six permissions, on top of
    whatever the individual permission names turned on.
   */
  function FromPresent(present: set<C.Name>): DenoFlags
  {
    var all := AllowAll in present;
    DenoFlags(
      logDebug := C.ArgName(C.ArgId.LogDebug) in present,
      version := C.ArgName(C.ArgId.Version) in present,
      reload := C.ArgName(C.ArgId.Reload) in present,
      allowRead := C.ArgName(C.ArgId.AllowRead) in present || all,
      allowWrite := C.ArgName(C.ArgId.AllowWrite) in present || all,
      allowNet := C.ArgName(C.ArgId.AllowNet) in present || all,
      allowEnv := C.ArgName(C.ArgId.AllowEnv) in present || all,
      allowRun := C.ArgName(C.ArgId.AllowRun) in present || all,
      allowHighPrecision := C.ArgName(C.ArgId.AllowHighPrecision) in present || all,
      noPrompts := C.ArgName(C.ArgId.NoPrompt) in present,
      types := C.ArgName(C.ArgId.Types) in present,
      prefetch := C.ArgName(C.ArgId.Prefetch) in present,
      info := C.SubName(C.InfoCmd) in present,
      fmt := C.SubName(C.FmtCmd) in present,
      eval := C.SubName(C.EvalCmd) in present)
  }

  /** The mapping agrees with the reference reading on every field. */
  lemma FromPresentGrants(present: set<C.Name>, f: Field)
    ensures FromPresent(present).Get(f) <==> Grants(present, f)
  {
    match f
    case LogDebug =>
    case Version =>
    case Reload =>
    case AllowRead =>
    case AllowWrite =>
    case AllowNet =>
    case AllowEnv =>
    case AllowRun =>
    case AllowHighPrecision =>
    case NoPrompts =>
    case Types =>
    case Prefetch =>
    case Info =>
    case Fmt =>
    case Eval =>
  }

  /** With no names present, every field is false. */
  lemma NothingPresentIsDefault()
    ensures FromPresent({}) == Default
    ensures forall f: Field :: !Default.Get(f)
  {
  }

  /** The records for the switch combinations of the example invocations. */
  lemma ExampleRecords()
    ensures FromPresent({C.ArgName(C.Reload), C.ArgName(C.LogDebug)}) == Default.(logDebug := true, reload := true)
    ensures FromPresent({C.ArgName(C.Reload), C.ArgName(C.AllowWrite)}) == Default.(reload := true, allowWrite := true)
    ensures FromPresent({C.ArgName(C.LogDebug), C.ArgName(C.Reload), C.ArgName(C.AllowWrite)})
            == Default.(logDebug := true, reload := true, allowWrite := true)
    ensures FromPresent({C.ArgName(C.V8Flags)}) == Default
  {
  }

  /** Each declared subcommand's name, alone, turns on its own mode field. */
  lemma ModeRecords()
    ensures FromPresent({C.SubName(C.InfoCmd)}) == Default.(info := true)
    ensures FromPresent({C.SubName(C.EvalCmd)}) == Default.(eval := true)
    ensures FromPresent({C.SubName(C.FmtCmd)}) == Default.(fmt := true)
  {
  }

  /** Each switch's own name, alone, turns on exactly that switch and nothing else. */
  lemma OwnNameSetsOnlyItsField(f: Field)
    ensures forall g: Field :: FromPresent({f.Key()}).Get(g) <==> g == f
  {
  }

  /** Adding names can only turn switches on, never off. */
  lemma MoreNamesMoreFlags(p: set<C.Name>, q: set<C.Name>, f: Field)
    requires p <= q
    requires FromPresent(p).Get(f)
    ensures FromPresent(q).Get(f)
  {
  }

  /**
    `allow-all` is the union of the six permission arguments: beside any
    other names, it gives the same record as the six individual names.
   */
  lemma AllowAllIsUnionOfPermissions(p: set<C.Name>)
    requires AllowAll !in p
    ensures FromPresent(p + {AllowAll}) == FromPresent(p + Permissions)
  {
  }

  /** Adding some or all individual permission names beside `allow-all` changes nothing. */
  lemma PermissionsBesideAllowAllChangeNothing(p: set<C.Name>, some: set<C.Name>)
    requires some <= Permissions
    ensures FromPresent(p + some + {AllowAll}) == FromPresent(p + {AllowAll})
  {
  }

  /** The engine-option arguments never change the record. */
  lemma EngineOptionsChangeNothing(p: set<C.Name>)
    ensures FromPresent(p + {C.ArgName(C.V8Options), C.ArgName(C.V8Flags)}) == FromPresent(p)
  {
  }
}

=== FILE: invocation.dfy ===
/**
  `set_flags` end to end: classify the command line, hand the engine its
  options, and return the flags record with the argument list for the
  script. The examples in the source file's own test functions are stated
  here as lemmas about the whole pipeline.
 */
module Invocation {
  import opened Wrappers
  import C = Catalog
  import F = Flags
  import Cli
  import Engine
  import opened Classifier

  /**
    How a call ends: the parser rejects the command line and the process
    exits, the code panics on a missing value, or it returns. The declared
    error arm of the result type is never produced, so a return always
    carries the flags and the argument list.
   */
  datatype Outcome =
    | Exited(error: ParseError)
    | Panicked
    | Returned(engineCalls: seq<seq<string>>, parsed: Cli.Parsed)

  /**
    What `set_flags` does once the parser has accepted the command line:
    assemble the script's argument list, make the engine calls, and build
    the record from the names reported present.
   */
  function Finish(m: Cli.Matches): (r: Outcome)
    ensures !r.Exited?
    ensures r.Panicked? <==> C.ArgName(C.V8Flags) in Cli.Present(m) && C.V8Flags !in m.values
    ensures r.Returned? ==> |r.parsed.restArgv| >= 1 && r.parsed.restArgv[0] == C.Program
  {
    match Engine.EngineCalls(m)
    case None => Panicked
    case Some(calls) => Returned(calls, Cli.Parsed(F.FromPresent(Cli.Present(m)), Cli.RestArgv(m.sub)))
  }

  /** `set_flags` as written: a rejected command line ends the process. */
  function SetFlags(argv: seq<string>): (r: Outcome)
    ensures r.Exited? <==> Parse(argv).Err?
    ensures r.Exited? ==> r.error == Parse(argv).error
    ensures !r.Exited? ==> r == Finish(Parse(argv).value)
  {
    match Parse(argv)
    case Err(e) => Exited(e)
    case Ok(m) => Finish(m)
  }

  /**
    The accepted-command-line part with the corrections: a script's name is
    never taken for a switch, and the engine's flag list is the program name
    followed by the value's comma-separated options. It never panics.
   */
  function FinishIntended(m: Cli.Matches): (r: Outcome)
    ensures r.Returned?
    ensures |r.parsed.restArgv| >= 1 && r.parsed.restArgv[0] == C.Program
  {
    Returned(Engine.EngineCallsIntended(m), Cli.Parsed(F.FromPresent(Cli.PresentDeclared(m)), Cli.RestArgv(m.sub)))
  }

  /** `set_flags` with the corrections. */
  function SetFlagsIntended(argv: seq<string>): (r: Outcome)
    ensures !r.Panicked?
    ensures r.Exited? <==> Parse(argv).Err?
    ensures !r.Exited? ==> r == FinishIntended(Parse(argv).value)
  {
    match Parse(argv)
    case Err(e) => Exited(e)
    case Ok(m) => FinishIntended(m)
  }

  /** The names of a set of global arguments. */
  function ArgNames(ids: set<C.ArgId>): (r: set<C.Name>)
    ensures forall id: C.ArgId :: C.ArgName(id) in r <==> id in ids
    ensures forall s: C.SubId :: C.SubName(s) !in r
  {
    set id | id in ids :: C.ArgName(id)
  }

  /**
    The classification of distinct long switches followed by a script word
    and its arguments.
   */
  lemma {:induction false} ScriptModeMatches(bin: string, ids: seq<C.ArgId>, script: string, args: seq<string>)
    requires DistinctSwitches(ids)
    requires !LooksLikeFlag(script) && C.FromSubName(script).None?
    ensures Parse([bin] + LongTokens(ids) + [script] + args)
            == Ok(Cli.Matches(set id | id in ids, map[], Cli.Script(script, args)))
  {
    var argv := [bin] + LongTokens(ids) + [script] + args;
    var tail := [script] + args;
    var s := set id | id in ids;
    assert Parse(argv) == ParseTokens(LongTokens(ids) + tail, Cli.Empty) by {
      assert argv == [bin] + (LongTokens(ids) + tail);
      SkipProgramName(bin, LongTokens(ids) + tail);
    }
    LongFlagsAccumulate(ids, tail, Cli.Empty);
    assert Cli.Empty.(args := Cli.Empty.args + s) == Cli.Matches(s, map[], Cli.NoSub);
    PassthroughIsVerbatim(script, args, Cli.Matches(s, map[], Cli.NoSub));
  }

  /**
    After a script selection with switches only: the record holds exactly
    the switches, the engine receives only the `--v8-options` request if
    asked, and the script and its arguments reach the script verbatim.
   */
  lemma ScriptFinish(ids: set<C.ArgId>, script: string, args: seq<string>)
    requires forall id :: id in ids ==> !id.TakesValue()
    requires C.FromSubName(script).None? && C.FromLong(script).None?
    ensures Finish(Cli.Matches(ids, map[], Cli.Script(script, args)))
            == Returned(if C.V8Options in ids then [Engine.V8OptionsArgv] else [],
                        Cli.Parsed(F.FromPresent(ArgNames(ids)), [C.Program, script] + args))
  {
    var m := Cli.Matches(ids, map[], Cli.Script(script, args));
    assert Cli.SpelledAs(script) == {};
    assert (set a | a in m.values :: C.ArgName(a)) == {};
    assert Cli.Present(m) == ArgNames(ids);
    assert C.V8Flags !in ids;
    assert Cli.RestArgv(m.sub) == [C.Program, script] + args;
  }

  /**
    Script mode end to end: with distinct long switches and a script whose
    name is not itself a catalog name, the record holds exactly those
    switches, the engine receives only the `--v8-options` request if asked,
    and the script and every argument after it reach the script verbatim.
   */
  lemma ScriptModeEndToEnd(bin: string, ids: seq<C.ArgId>, script: string, args: seq<string>)
    requires DistinctSwitches(ids)
    requires !LooksLikeFlag(script) && C.FromSubName(script).None? && C.FromLong(script).None?
    ensures SetFlags([bin] + LongTokens(ids) + [script] + args)
            == Returned(if C.V8Options in ids then [Engine.V8OptionsArgv] else [],
                        Cli.Parsed(F.FromPresent(ArgNames(set id | id in ids)), [C.Program, script] + args))
  {
    ScriptModeMatches(bin, ids, script, args);
    ScriptFinish((set id | id in ids), script, args);
  }

  /**
    The script's name never influences the corrected record: whatever the
    word, the record is that of the switches alone.
   */
  lemma IntendedIgnoresScriptName(bin: string, ids: seq<C.ArgId>, script: string, args: seq<string>)
    requires DistinctSwitches(ids)
    requires !LooksLikeFlag(script) && C.FromSubName(script).None?
    ensures SetFlagsIntended([bin] + LongTokens(ids) + [script] + args).Returned?
    ensures SetFlagsIntended([bin] + LongTokens(ids) + [script] + args).parsed.flags
            == F.FromPresent(ArgNames(set id | id in ids))
  {
    ScriptModeMatches(bin, ids, script, args);
    var m := Cli.Matches(set id | id in ids, map[], Cli.Script(script, args));
    assert Cli.PresentDeclared(m) == ArgNames(set id | id in ids);
  }

  /**
    Away from both quirks (no script named like a catalog name, no value
    given to `--v8-flags`), the code as written and the corrected code agree.
   */
  lemma IntendedAgreesAwayFromQuirks(argv: seq<string>)
    requires Parse(argv).Ok?
    requires Parse(argv).value.sub.Script? ==> Cli.SpelledAs(Parse(argv).value.sub.name) == {}
    requires C.V8Flags !in Parse(argv).value.values
    ensures SetFlags(argv) == SetFlagsIntended(argv)
  {
    var m := Parse(argv).value;
    assert Cli.Present(m) == Cli.PresentDeclared(m);
    assert C.V8Flags !in m.args;
    assert C.ArgName(C.V8Flags) !in Cli.Present(m);
    Engine.IntendedCallsAgree(m);
  }

  /** A script word alone after the binary name selects that script with nothing else present. */
  lemma ScriptAlone(word: string)
    requires !LooksLikeFlag(word) && C.FromSubName(word).None?
    ensures Parse(["deno", word]) == Ok(Cli.Empty.(sub := Cli.Script(word, [])))
  {
    assert ["deno", word][1..] == [word] + [];
    PassthroughIsVerbatim(word, [], Cli.Empty);
  }

  /**
    After a declared subcommand alone was accepted: no engine call, the record
    built from the subcommand's own name, and the values it captured; the
    corrections change nothing here.
   */
  lemma ModeFinish(sel: Cli.Selection)
    requires sel.Info? || sel.Eval? || sel.Fmt?
    ensures Finish(Cli.Empty.(sub := sel))
            == Returned([], Cli.Parsed(F.FromPresent(Cli.SelectedNames(sel)), Cli.RestArgv(sel)))
    ensures FinishIntended(Cli.Empty.(sub := sel)) == Finish(Cli.Empty.(sub := sel))
  {
    var m := Cli.Empty.(sub := sel);
    assert Cli.Present(m) == Cli.SelectedNames(sel);
    assert Cli.PresentDeclared(m) == Cli.SelectedNames(sel);
  }

  /** `deno info <file>`: only `info` is on, and the script gets the program name and the file. */
  lemma InfoEndToEnd(file: string)
    requires !LooksLikeFlag(file)
    ensures SetFlags(["deno", "info", file]) == Returned([], Cli.Parsed(F.Default.(info := true), ["deno", file]))
    ensures SetFlagsIntended(["deno", "info", file]) == SetFlags(["deno", "info", file])
  {
    assert Parse(["deno", "info", file]) == Ok(Cli.Empty.(sub := Cli.Info(file))) by {
      assert ["deno", "info", file][1..] == ["info", file];
      assert C.FromSubName("info") == Some(C.InfoCmd);
      assert ["info", file][1..] == [file];
    }
    ModeFinish(Cli.Info(file));
    F.ModeRecords();
  }

  /** `deno eval <code>`: only `eval` is on, and the script gets the program name and the code. */
  lemma EvalEndToEnd(code: string)
    requires !LooksLikeFlag(code)
    ensures SetFlags(["deno", "eval", code]) == Returned([], Cli.Parsed(F.Default.(eval := true), ["deno", code]))
    ensures SetFlagsIntended(["deno", "eval", code]) == SetFlags(["deno", "eval", code])
  {
    assert Parse(["deno", "eval", code]) == Ok(Cli.Empty.(sub := Cli.Eval(code))) by {
      assert ["deno", "eval", code][1..] == ["eval", code];
      assert C.FromSubName("eval") == Some(C.EvalCmd);
      assert ["eval", code][1..] == [code];
    }
    ModeFinish(Cli.Eval(code));
    F.ModeRecords();
  }

  /** `deno fmt <files>`: only `fmt` is on, and the script gets the program name and the files in order. */
  lemma FmtEndToEnd(files: seq<string>)
    requires |files| >= 1
    requires forall i :: 0 <= i < |files| ==> !LooksLikeFlag(files[i])
    ensures SetFlags(["deno", "fmt"] + files) == Returned([], Cli.Parsed(F.Default.(fmt := true), ["deno"] + files))
    ensures SetFlagsIntended(["deno", "fmt"] + files) == SetFlags(["deno", "fmt"] + files)
  {
    assert Parse(["deno", "fmt"] + files) == Ok(Cli.Empty.(sub := Cli.Fmt(files))) by {
      assert (["deno", "fmt"] + files)[1..] == ["fmt"] + files;
      assert C.FromSubName("fmt") == Some(C.FmtCmd);
      assert (["fmt"] + files)[1..] == files;
    }
    ModeFinish(Cli.Fmt(files));
    F.ModeRecords();
  }

  /** The outcome once the script `allow-all` was accepted. */
  lemma AllowAllScriptFinish()
    ensures Finish(Cli.Empty.(sub := Cli.Script("allow-all", [])))
            == Returned([], Cli.Parsed(F.FromPresent({F.AllowAll}), ["deno", "allow-all"]))
    ensures FinishIntended(Cli.Empty.(sub := Cli.Script("allow-all", []))).parsed.flags == F.Default
  {
    var m := Cli.Empty.(sub := Cli.Script("allow-all", []));
    assert Cli.Present(m) == {F.AllowAll} by {
      C.LongSpellingsAreUnique(C.AllowAll);
      assert Cli.SpelledAs("allow-all") == {F.AllowAll};
    }
    assert Engine.EngineCalls(m) == Some([]);
    ScriptRestArgv("allow-all", []);
    FinishWith(m, {F.AllowAll}, []);
    assert [C.Program, "allow-all"] + [] == ["deno", "allow-all"];
    assert Cli.PresentDeclared(m) == {} by {
      assert Cli.SelectedNames(Cli.NoSub) == {};
    }
    F.NothingPresentIsDefault();
  }

  /** `deno allow-all` runs a script called `allow-all` with every permission granted. */
  lemma ScriptNamedAllowAll()
    ensures SetFlags(["deno", "allow-all"])
            == Returned([], Cli.Parsed(F.Default.(allowRead := true, allowWrite := true, allowNet := true,
                                                  allowEnv := true, allowRun := true, allowHighPrecision := true),
                                       ["deno", "allow-all"]))
    ensures SetFlagsIntended(["deno", "allow-all"]).parsed.flags == F.Default
  {
    ScriptAlone("allow-all");
    AllowAllScriptFinish();
    assert F.FromPresent({F.AllowAll})
           == F.Default.(allowRead := true, allowWrite := true, allowNet := true,
                         allowEnv := true, allowRun := true, allowHighPrecision := true);
  }

  /** `deno v8-flags` panics: the flag looks present but has no value to unwrap. */
  lemma ScriptNamedV8FlagsPanics()
    ensures SetFlags(["deno", "v8-flags"]) == Panicked
    ensures SetFlagsIntended(["deno", "v8-flags"]).Returned?
  {
    ScriptAlone("v8-flags");
    var m := Cli.Empty.(sub := Cli.Script("v8-flags", []));
    assert C.ArgName(C.V8Flags) in Cli.Present(m) by {
      C.LongSpellingsAreUnique(C.V8Flags);
    }
  }

  /** The classification of `--v8-flags=<value>` followed by a script and its arguments. */
  lemma V8FlagsMatches(bin: string, value: string, script: string, args: seq<string>)
    requires value != ""
    requires !LooksLikeFlag(script) && C.FromSubName(script).None?
    ensures Parse([bin, "--v8-flags=" + value, script] + args)
            == Ok(Cli.Matches({}, map[C.V8Flags := value], Cli.Script(script, args)))
  {
    var token := "--v8-flags=" + value;
    var rest := [script] + args;
    var m0 := Cli.Empty.(values := map[C.V8Flags := value]);
    var argv := [bin, token, script] + args;
    assert Parse(argv) == ParseTokens([token] + rest, Cli.Empty) by {
      assert argv[1..] == [token] + rest;
    }
    V8FlagsToken(value, rest);
    PassthroughIsVerbatim(script, args, m0);
  }

  /** A `--v8-flags=<value>` token first records the value, then the rest is classified. */
  lemma V8FlagsToken(value: string, rest: seq<string>)
    requires value != ""
    ensures ParseTokens(["--v8-flags=" + value] + rest, Cli.Empty)
            == ParseTokens(rest, Cli.Empty.(values := map[C.V8Flags := value]))
  {
    var token := "--v8-flags=" + value;
    var m0 := Cli.Empty.(values := map[C.V8Flags := value]);
    assert IsLongToken(token);
    assert LongToken(token[2..], Cli.Empty) == Ok(m0) by {
      assert token[2..] == C.ArgId.V8Flags.Name() + "=" + value;
      ValueToken(C.V8Flags, value, Cli.Empty);
    }
    assert ([token] + rest)[0] == token && ([token] + rest)[1..] == rest;
  }

  /** After `--v8-flags=<value>` and a script, only `v8-flags` is present. */
  lemma V8FlagsAlonePresent(value: string, script: string, args: seq<string>)
    requires C.FromSubName(script).None? && C.FromLong(script).None?
    ensures Cli.Present(Cli.Matches({}, map[C.V8Flags := value], Cli.Script(script, args))) == {C.ArgName(C.V8Flags)}
    ensures Cli.PresentDeclared(Cli.Matches({}, map[C.V8Flags := value], Cli.Script(script, args)))
            == {C.ArgName(C.V8Flags)}
  {
    assert Cli.SpelledAs(script) == {};
  }

  /** The calls and record once `--v8-flags=<value>` and a script were accepted. */
  lemma V8FlagsFinish(value: string, script: string, args: seq<string>)
    requires C.FromSubName(script).None? && C.FromLong(script).None?
    ensures Finish(Cli.Matches({}, map[C.V8Flags := value], Cli.Script(script, args)))
            == Returned([[value, C.Program]],
                        Cli.Parsed(F.Default, [C.Program, script] + args))
    ensures FinishIntended(Cli.Matches({}, map[C.V8Flags := value], Cli.Script(script, args)))
            == Returned([[C.Program] + Engine.Split(value, Engine.ValueDelimiter)],
                        Cli.Parsed(F.Default, [C.Program, script] + args))
  {
    var m := Cli.Matches({}, map[C.V8Flags := value], Cli.Script(script, args));
    F.ExampleRecords();
    V8FlagsAlonePresent(value, script, args);
    Engine.V8FlagsValueAlone(m);
    ScriptRestArgv(script, args);
    FinishWith(m, {C.ArgName(C.V8Flags)}, [[value, C.Program]]);
    FinishIntendedWith(m, {C.ArgName(C.V8Flags)}, [[C.Program] + Engine.Split(value, Engine.ValueDelimiter)]);
  }

  /** A script's forwarded list: the program name, the script, then its arguments. */
  lemma ScriptRestArgv(script: string, args: seq<string>)
    ensures Cli.RestArgv(Cli.Script(script, args)) == [C.Program, script] + args
  {
    assert [C.Program] + ([script] + args) == [C.Program, script] + args;
  }

  /** `Finish` once the names present and the engine calls are known. */
  lemma FinishWith(m: Cli.Matches, names: set<C.Name>, calls: seq<seq<string>>)
    requires Cli.Present(m) == names && Engine.EngineCalls(m) == Some(calls)
    ensures Finish(m) == Returned(calls, Cli.Parsed(F.FromPresent(names), Cli.RestArgv(m.sub)))
  {
  }

  /** `FinishIntended` once the names present and the engine calls are known. */
  lemma FinishIntendedWith(m: Cli.Matches, names: set<C.Name>, calls: seq<seq<string>>)
    requires Cli.PresentDeclared(m) == names && Engine.EngineCallsIntended(m) == calls
    ensures FinishIntended(m) == Returned(calls, Cli.Parsed(F.FromPresent(names), Cli.RestArgv(m.sub)))
  {
  }

  /**
    `--v8-flags=<value>` before a script: as written the whole value reaches
    the engine, followed by the program name; corrected, the program name
    comes first and the value is cut at commas. Nothing else changes.
   */
  lemma V8FlagsEndToEnd(bin: string, value: string, script: string, args: seq<string>)
    requires value != ""
    requires !LooksLikeFlag(script) && C.FromSubName(script).None? && C.FromLong(script).None?
    ensures SetFlags([bin, "--v8-flags=" + value, script] + args)
            == Returned([[value, C.Program]],
                        Cli.Parsed(F.Default, [C.Program, script] + args))
    ensures SetFlagsIntended([bin, "--v8-flags=" + value, script] + args)
            == Returned([[C.Program] + Engine.Split(value, Engine.ValueDelimiter)],
                        Cli.Parsed(F.Default, [C.Program, script] + args))
  {
    V8FlagsMatches(bin, value, script, args);
    V8FlagsFinish(value, script, args);
  }

  /**
    Switches with no script: the record holds exactly those switches and the
    script's argument list is the program name alone.
   */
  lemma SwitchesOnlyEndToEnd(bin: string, ids: seq<C.ArgId>)
    requires DistinctSwitches(ids)
    ensures SetFlags([bin] + LongTokens(ids))
            == Returned(if C.V8Options in ids then [Engine.V8OptionsArgv] else [],
                        Cli.Parsed(F.FromPresent(ArgNames(set id | id in ids)), [C.Program]))
  {
    SwitchesOnlyMatches(bin, ids);
    SwitchesOnlyFinish(set id | id in ids);
  }

  /** The classification of distinct long switches with nothing after them. */
  lemma SwitchesOnlyMatches(bin: string, ids: seq<C.ArgId>)
    requires DistinctSwitches(ids)
    ensures Parse([bin] + LongTokens(ids)) == Ok(Cli.Matches(set id | id in ids, map[], Cli.NoSub))
  {
    var s := set id | id in ids;
    assert ([bin] + LongTokens(ids))[1..] == LongTokens(ids) + [];
    LongFlagsAccumulate(ids, [], Cli.Empty);
    assert Cli.Empty.(args := Cli.Empty.args + s) == Cli.Matches(s, map[], Cli.NoSub);
  }

  /** The outcome once switches alone were accepted. */
  lemma SwitchesOnlyFinish(ids: set<C.ArgId>)
    requires forall id :: id in ids ==> !id.TakesValue()
    ensures Finish(Cli.Matches(ids, map[], Cli.NoSub))
            == Returned(if C.V8Options in ids then [Engine.V8OptionsArgv] else [],
                        Cli.Parsed(F.FromPresent(ArgNames(ids)), [C.Program]))
  {
    var m := Cli.Matches(ids, map[], Cli.NoSub);
    assert (set a | a in m.values :: C.ArgName(a)) == {};
    assert Cli.Present(m) == ArgNames(ids);
    assert C.V8Flags !in ids;
  }

  /** The long spelling of one argument, as a one-token list. */
  lemma OneLongToken(id: C.ArgId)
    ensures LongTokens([id]) == ["--" + id.Name()]
    ensures (set x | x in [id]) == {id}
    ensures ArgNames({id}) == {C.ArgName(id)}
  {
  }

  /** The long spellings of two arguments, as a two-token list. */
  lemma TwoLongTokens(a: C.ArgId, b: C.ArgId)
    ensures LongTokens([a, b]) == ["--" + a.Name(), "--" + b.Name()]
    ensures (set x | x in [a, b]) == {a, b}
    ensures ArgNames({a, b}) == {C.ArgName(a), C.ArgName(b)}
  {
    assert [a, b][1..] == [b];
  }

  /**
    Two strings with the same characters at every position are equal; this
    is how a spelled-out token such as `"--version"` is matched with the
    catalog's `"--" + name`.
   */
  lemma SameCharacters(s: string, t: string)
    requires |s| == |t| && forall i :: 0 <= i < |s| ==> s[i] == t[i]
    ensures s == t
  {
  }

  /** One long switch alone. */
  lemma OneSwitchEndToEnd(id: C.ArgId, long: string, expected: F.DenoFlags)
    requires !id.TakesValue() && id != C.V8Options && long == "--" + id.Name()
    requires F.FromPresent({C.ArgName(id)}) == expected
    ensures SetFlags(["deno", long]) == Returned([], Cli.Parsed(expected, ["deno"]))
  {
    OneLongToken(id);
    assert ["deno"] + LongTokens([id]) == ["deno", long];
    assert F.FromPresent(ArgNames(set x | x in [id])) == expected;
    SwitchesOnlyEndToEnd("deno", [id]);
  }

  /** One long switch before a script whose name is no catalog name. */
  lemma OneSwitchScript(id: C.ArgId, long: string, script: string, args: seq<string>, expected: F.DenoFlags)
    requires !id.TakesValue() && id != C.V8Options && long == "--" + id.Name()
    requires !LooksLikeFlag(script) && C.FromSubName(script).None? && C.FromLong(script).None?
    requires F.FromPresent({C.ArgName(id)}) == expected
    ensures SetFlags(["deno", long, script] + args)
            == Returned([], Cli.Parsed(expected, [C.Program, script] + args))
  {
    OneLongToken(id);
    assert ["deno"] + LongTokens([id]) + [script] + args == ["deno", long, script] + args by {
      assert ["deno"] + LongTokens([id]) == ["deno", long];
      assert ["deno", long] + [script] == ["deno", long, script];
    }
    assert F.FromPresent(ArgNames(set x | x in [id])) == expected;
    ScriptModeEndToEnd("deno", [id], script, args);
  }

  /** `deno --version`: only `version` is on, and the script gets just the program name. */
  lemma VersionAlone()
    ensures SetFlags(["deno", "--version"]) == Returned([], Cli.Parsed(F.Default.(version := true), ["deno"]))
  {
    SameCharacters("--" + "version", "--version");
    OneSwitchEndToEnd(C.Version, "--version", F.Default.(version := true));
  }

  /** `deno --types`: only `types` is on. */
  lemma TypesAlone()
    ensures SetFlags(["deno", "--types"]) == Returned([], Cli.Parsed(F.Default.(types := true), ["deno"]))
  {
    SameCharacters("--" + "types", "--types");
    OneSwitchEndToEnd(C.Types, "--types", F.Default.(types := true));
  }

  /** `deno --allow-net gist.ts --title X`: the flag-like `--title` after the script is the script's, not the runtime's. */
  lemma ScriptArgumentsPassThrough()
    ensures SetFlags(["deno", "--allow-net", "gist.ts", "--title", "X"])
            == Returned([], Cli.Parsed(F.Default.(allowNet := true), ["deno", "gist.ts", "--title", "X"]))
  {
    assert ["deno", "--allow-net", "gist.ts"] + ["--title", "X"] == ["deno", "--allow-net", "gist.ts", "--title", "X"];
    assert [C.Program, "gist.ts"] + ["--title", "X"] == ["deno", "gist.ts", "--title", "X"];
    SameCharacters("--" + "allow-net", "--allow-net");
    OneSwitchScript(C.AllowNet, "--allow-net", "gist.ts", ["--title", "X"], F.Default.(allowNet := true));
  }

  /** `deno --allow-all gist.ts`: all six permissions are on, and nothing else. */
  lemma AllowAllGrantsEveryPermission()
    ensures SetFlags(["deno", "--allow-all", "gist.ts"])
            == Returned([], Cli.Parsed(F.Default.(allowNet := true, allowEnv := true, allowRun := true, allowRead := true, allowWrite := true, allowHighPrecision := true), ["deno", "gist.ts"]))
  {
    assert ["deno", "--allow-all", "gist.ts"] + [] == ["deno", "--allow-all", "gist.ts"];
    assert [C.Program, "gist.ts"] + [] == ["deno", "gist.ts"];
    SameCharacters("--" + "allow-all", "--allow-all");
    OneSwitchScript(C.AllowAll, "--allow-all", "gist.ts", [], F.Default.(allowNet := true, allowEnv := true, allowRun := true, allowRead := true, allowWrite := true, allowHighPrecision := true));
  }

  /** `deno --allow-read gist.ts`: only read access. */
  lemma AllowReadAlone()
    ensures SetFlags(["deno", "--allow-read", "gist.ts"])
            == Returned([], Cli.Parsed(F.Default.(allowRead := true), ["deno", "gist.ts"]))
  {
    assert ["deno", "--allow-read", "gist.ts"] + [] == ["deno", "--allow-read", "gist.ts"];
    assert [C.Program, "gist.ts"] + [] == ["deno", "gist.ts"];
    SameCharacters("--" + "allow-read", "--allow-read");
    OneSwitchScript(C.AllowRead, "--allow-read", "gist.ts", [], F.Default.(allowRead := true));
  }

  /** `deno --allow-high-precision script.ts`: only high-precision timing. */
  lemma AllowHighPrecisionAlone()
    ensures SetFlags(["deno", "--allow-high-precision", "script.ts"])
            == Returned([], Cli.Parsed(F.Default.(allowHighPrecision := true), ["deno", "script.ts"]))
  {
    assert ["deno", "--allow-high-precision", "script.ts"] + [] == ["deno", "--allow-high-precision", "script.ts"];
    assert [C.Program, "script.ts"] + [] == ["deno", "script.ts"];
    SameCharacters("--" + "allow-high-precision", "--allow-high-precision");
    OneSwitchScript(C.AllowHighPrecision, "--allow-high-precision", "script.ts", [], F.Default.(allowHighPrecision := true));
  }

  /** The outcome once distinct switches and a script whose name is no catalog name were accepted. */
  lemma ScriptFinishWith(ids: set<C.ArgId>, script: string, args: seq<string>,
                         names: set<C.Name>, expected: F.DenoFlags, rest: seq<string>)
    requires forall id :: id in ids ==> !id.TakesValue()
    requires C.V8Options !in ids
    requires C.FromSubName(script).None? && C.FromLong(script).None?
    requires ArgNames(ids) == names && F.FromPresent(names) == expected
    requires rest == [C.Program, script] + args
    ensures Finish(Cli.Matches(ids, map[], Cli.Script(script, args))) == Returned([], Cli.Parsed(expected, rest))
  {
    ScriptFinish(ids, script, args);
  }

  /** The script name used by the example invocations is an ordinary word. */
  lemma ExampleScriptIsPlain()
    ensures !LooksLikeFlag("script.ts") && C.FromSubName("script.ts").None? && C.FromLong("script.ts").None?
  {
  }

  /** The names of three arguments. */
  lemma ThreeArgNames(a: C.ArgId, b: C.ArgId, c: C.ArgId)
    ensures ArgNames({a, b, c}) == {C.ArgName(a), C.ArgName(b), C.ArgName(c)}
  {
  }

  /** `-r` records `reload`. */
  lemma ReloadShort(rest: seq<string>)
    ensures ParseTokens(["-r"] + rest, Cli.Empty) == ParseTokens(rest, Cli.Empty.(args := Cli.Empty.args + {C.Reload}))
  {
    assert C.FromShort('r') == Some(C.Reload);
    ShortStep('r', rest, Cli.Empty);
    assert "-r" == ['-', 'r'];
  }

  /** How `-r -D script.ts` is classified. */
  lemma SeparateShortSwitchesParse()
    ensures Parse(["deno", "-r", "-D", "script.ts"])
            == Ok(Cli.Matches({C.Reload, C.LogDebug}, map[], Cli.Script("script.ts", [])))
  {
    var m1 := Cli.Empty.(args := Cli.Empty.args + {C.Reload});
    var m2 := m1.(args := m1.args + {C.LogDebug});
    assert ParseTokens(["script.ts"], m2) == Ok(Cli.Matches({C.Reload, C.LogDebug}, map[], Cli.Script("script.ts", []))) by {
      PassthroughIsVerbatim("script.ts", [], m2);
      assert ["script.ts"] == ["script.ts"] + [];
      assert m2.(sub := Cli.Script("script.ts", [])) == Cli.Matches({C.Reload, C.LogDebug}, map[], Cli.Script("script.ts", []));
    }
    assert ParseTokens(["-D", "script.ts"], m1) == ParseTokens(["script.ts"], m2) by {
      ShortStep('D', ["script.ts"], m1);
      assert ["-D", "script.ts"] == [['-', 'D']] + ["script.ts"];
    }
    assert ParseTokens(["-r", "-D", "script.ts"], Cli.Empty) == ParseTokens(["-D", "script.ts"], m1) by {
      ReloadShort(["-D", "script.ts"]);
      assert ["-r", "-D", "script.ts"] == ["-r"] + ["-D", "script.ts"];
    }
    assert ["deno", "-r", "-D", "script.ts"][1..] == ["-r", "-D", "script.ts"];
  }

  /** `deno -r -D script.ts`: two short switches, given separately. */
  lemma SeparateShortSwitches()
    ensures SetFlags(["deno", "-r", "-D", "script.ts"])
            == Returned([], Cli.Parsed(F.Default.(logDebug := true, reload := true), ["deno", "script.ts"]))
  {
    ExampleScriptIsPlain();
    F.ExampleRecords();
    TwoLongTokens(C.Reload, C.LogDebug);
    ScriptFinishWith({C.Reload, C.LogDebug}, "script.ts", [], {C.ArgName(C.Reload), C.ArgName(C.LogDebug)},
                     F.Default.(logDebug := true, reload := true), ["deno", "script.ts"]);
    SeparateShortSwitchesParse();
  }

  /** A long switch, then a script with no arguments. */
  lemma LongThenScript(id: C.ArgId, long: string, script: string, m: Cli.Matches)
    requires !id.TakesValue() && long == "--" + id.Name() && id !in m.args
    requires !LooksLikeFlag(script) && C.FromSubName(script).None?
    ensures ParseTokens([long, script], m) == Ok(m.(args := m.args + {id}, sub := Cli.Script(script, [])))
  {
    var m1 := m.(args := m.args + {id});
    LongSwitchStep(id, [script], m);
    assert [long, script] == [long] + [script];
    PassthroughIsVerbatim(script, [], m1);
    assert [script] == [script] + [];
  }

  /** `--allow-write script.ts` records the switch and selects the script. */
  lemma AllowWriteThenScript(m: Cli.Matches)
    requires C.AllowWrite !in m.args
    ensures ParseTokens(["--allow-write", "script.ts"], m)
            == Ok(m.(args := m.args + {C.AllowWrite}, sub := Cli.Script("script.ts", [])))
  {
    ExampleScriptIsPlain();
    SameCharacters("--" + "allow-write", "--allow-write");
    LongThenScript(C.AllowWrite, "--allow-write", "script.ts", m);
  }

  /** How `-r --allow-write script.ts` is classified. */
  lemma ShortAndLongSwitchesParse()
    ensures Parse(["deno", "-r", "--allow-write", "script.ts"])
            == Ok(Cli.Matches({C.Reload, C.AllowWrite}, map[], Cli.Script("script.ts", [])))
  {
    var m1 := Cli.Empty.(args := Cli.Empty.args + {C.Reload});
    var m2 := Cli.Matches({C.Reload, C.AllowWrite}, map[], Cli.Script("script.ts", []));
    assert ParseTokens(["--allow-write", "script.ts"], m1) == Ok(m2) by {
      AllowWriteThenScript(m1);
      assert m1.(args := m1.args + {C.AllowWrite}, sub := Cli.Script("script.ts", [])) == m2;
    }
    ReloadShort(["--allow-write", "script.ts"]);
    SkipProgramName("deno", ["-r"] + ["--allow-write", "script.ts"]);
    assert ["deno"] + (["-r"] + ["--allow-write", "script.ts"]) == ["deno", "-r", "--allow-write", "script.ts"];
  }

  /** The classifier starts after the program name, with nothing recorded. */
  lemma SkipProgramName(bin: string, tokens: seq<string>)
    ensures Parse([bin] + tokens) == ParseTokens(tokens, Cli.Empty)
  {
    assert ([bin] + tokens)[1..] == tokens;
  }

  /** `deno -r --allow-write script.ts`: a short and a long switch. */
  lemma ShortAndLongSwitches()
    ensures SetFlags(["deno", "-r", "--allow-write", "script.ts"])
            == Returned([], Cli.Parsed(F.Default.(reload := true, allowWrite := true), ["deno", "script.ts"]))
  {
    ExampleScriptIsPlain();
    F.ExampleRecords();
    TwoLongTokens(C.Reload, C.AllowWrite);
    ScriptFinishWith({C.Reload, C.AllowWrite}, "script.ts", [], {C.ArgName(C.Reload), C.ArgName(C.AllowWrite)},
                     F.Default.(reload := true, allowWrite := true), ["deno", "script.ts"]);
    ShortAndLongSwitchesParse();
  }

  /** `-Dr` records `log-debug`, then `reload`. */
  lemma LogDebugReloadCluster(rest: seq<string>)
    ensures ParseTokens(["-Dr"] + rest, Cli.Empty)
            == ParseTokens(rest, Cli.Empty.(args := Cli.Empty.args + {C.LogDebug} + {C.Reload}))
  {
    assert C.FromShort('D') == Some(C.LogDebug) && C.FromShort('r') == Some(C.Reload);
    ShortPairStep('D', 'r', rest, Cli.Empty);
    assert "-Dr" == ['-', 'D', 'r'];
  }

  /** How `-Dr --allow-write script.ts` is classified. */
  lemma CombinedShortSwitchesParse()
    ensures Parse(["deno", "-Dr", "--allow-write", "script.ts"])
            == Ok(Cli.Matches({C.LogDebug, C.Reload, C.AllowWrite}, map[], Cli.Script("script.ts", [])))
  {
    var m1 := Cli.Empty.(args := Cli.Empty.args + {C.LogDebug} + {C.Reload});
    var m2 := Cli.Matches({C.LogDebug, C.Reload, C.AllowWrite}, map[], Cli.Script("script.ts", []));
    assert ParseTokens(["--allow-write", "script.ts"], m1) == Ok(m2) by {
      AllowWriteThenScript(m1);
      assert m1.(args := m1.args + {C.AllowWrite}, sub := Cli.Script("script.ts", [])) == m2;
    }
    assert ParseTokens(["-Dr", "--allow-write", "script.ts"], Cli.Empty) == Ok(m2) by {
      LogDebugReloadCluster(["--allow-write", "script.ts"]);
      assert ["-Dr", "--allow-write", "script.ts"] == ["-Dr"] + ["--allow-write", "script.ts"];
    }
    assert ["deno", "-Dr", "--allow-write", "script.ts"][1..] == ["-Dr", "--allow-write", "script.ts"];
  }

  /** `deno -Dr --allow-write script.ts`: two short switches combined in one token. */
  lemma CombinedShortSwitches()
    ensures SetFlags(["deno", "-Dr", "--allow-write", "script.ts"])
            == Returned([], Cli.Parsed(F.Default.(logDebug := true, reload := true, allowWrite := true),
                                       ["deno", "script.ts"]))
  {
    ExampleScriptIsPlain();
    F.ExampleRecords();
    ThreeArgNames(C.LogDebug, C.Reload, C.AllowWrite);
    ScriptFinishWith({C.LogDebug, C.Reload, C.AllowWrite}, "script.ts", [],
                     {C.ArgName(C.LogDebug), C.ArgName(C.Reload), C.ArgName(C.AllowWrite)},
                     F.Default.(logDebug := true, reload := true, allowWrite := true), ["deno", "script.ts"]);
    CombinedShortSwitchesParse();
  }
}

=== FILE: wrappers.dfy ===
/** Failure-compatible wrappers shared by the modules of this model. */
module Wrappers {

  /** An optional value: the model of Rust's `Option`. */
  datatype Option<+T> = None | Some(value: T)

  /** A value or an error: the model of Rust's `Result`, usable with `:-`. */
  datatype Result<+T, +E> = Ok(value: T) | Err(error: E) {

    predicate IsFailure() {
      Err?
    }

    function PropagateFailure<U>(): Result<U, E>
      requires Err?
    {
      Err(error)
    }

    function Extract(): T
      requires Ok?
    {
      value
    }
  }
}
